=== FILE: README.md ===
# A2235-H GPS driver for Tessel — a Dafny model

This project models the core of the Tessel driver for the A2235-H GPS
module. The driver has two generations. The Tessel 1 driver is `index.js`,
which defines its own `_power`, `powerOn` and `powerOff`; its `powerOff`
emits 'power-off' before the callback runs. `lib/tessel_1/driver.js`
repeats the bring-up and poll logic of `index.js`, adds a datestamp to the
fix reports and takes its power functions from `lib/common.js`. The
Tessel 2 driver is `lib/tessel_2/driver.js`, which also takes its power
functions from `lib/common.js`.

The driver's state is an immutable record. Each timer expiry, UART byte,
poll or packet is an input to a pure transition function. Everything the
driver does that can be observed is an output trace: pin changes, emitted
events, callbacks, UART writes and re-opens.

| file | module | what it models |
|---|---|---|
| `wrappers.dfy` | `Wrappers` | `Option` |
| `effects.dfy` | `Effects` | the shared trace alphabet (`Action`), event names, error messages, counting in traces |
| `jstext.dfy` | `JsText` | the ECMAScript built-ins the driver relies on: `indexOf`, `slice` index normalisation, `parseInt` with radix 10 and with no radix (section 19.2.5 of ECMA-262), and `String(n)` for integers |
| `polltime.dfy` | `PollTime` | `setPollTime`/`getPollTime` |
| `fixpolling.dfy` | `FixPolling` | `_checkConnection`, the fix poll with its 'dropped' event |
| `powertoggle.dfy` | `PowerToggle` | `_power`, `powerOn`, `powerOff` (both the `lib/common.js` and the `index.js` variants) |
| `retrybringup.dfy` | `RetryBringUp` | Tessel 1 bring-up: the initial check plus up to four pulse-and-check attempts |
| `sirfframe.dfy` | `SirfFrame` | the SiRF Binary Protocol transport message and the "Switch To NMEA Protocol" message (Message ID 129) written by `_switchToNMEA9800` |
| `probebringup.dfy` | `ProbeBringUp` | Tessel 2 bring-up (`_initialPowerSequence`): listen, pulse once, final window |
| `nmea.dfy` | `Nmea` | the abstract result of `nmea.parse`, and symbolic numbers |
| `coordformat.dfy` | `CoordFormat` | `setCoordinateFormat` |
| `coordinates.dfy` | `Coordinates` | `_emitCoordinates`: the `ddmm.mmmm` field split, the guard and the result shapes |
| `packets.dfy` | `Packets` | `_beginParsing`'s packet handler and `_emitAltitude`, with the `setImmediate` ordering |

## Timing conventions

Where nothing can intervene, timers are written as `Wait(ms)` actions inside
a trace. This covers the pulse in `_power` and the retry loop's checks. In
the Tessel 2 probe, a byte may arrive between any two timers, so timer
expiries are inputs (`Expire(t)`), next to `Data`. A `setImmediate`
callback runs after everything emitted synchronously in the same turn. The
packet model therefore keeps synchronous events (`now`) apart from deferred
ones (`later`), and a listener observes `now + later`.

## The Message ID 129 frame

The driver writes 32 bytes as one array literal. `SirfFrame.SwitchFrame`
holds the same bytes in the same order, grouped by field: the start
sequence and length, then the payload (Message ID, mode, ten rate pairs,
baud rate), then the checksum and the end sequence.
`SirfFrame.SwitchFrameIsWellFormed` proves that these bytes are the
transport frame of the encoded settings.

## Model

| member | source | states |
|---|---|---|
| Effects.UserCallback | lib/tessel_2/driver.js:51-53 | an optional user callback is invoked, with no argument, exactly when one was passed |
| Effects.NamesDistinct | lib/common.js:49-51 | different events have different names; in particular `lib/common.js`'s 'powerOff' is not `index.js`'s 'power-off' |
| Effects.MessagesDistinct | lib/tessel_2/driver.js:234 | the two bring-up failures carry different messages |
| JsText.IndexOf | lib/tessel_2/driver.js:139-140 | the result is -1 exactly when the character is absent; otherwise it is the first index holding it |
| JsText.Slice | lib/tessel_2/driver.js:141-144 | in-range indices give the plain substring; a negative start counts back from the end, so `slice(-k, length)` is the last k characters; a start at or past the end, or an end not after a non-negative start, gives nothing |
| JsText.SliceSplit | lib/tessel_2/driver.js:141-144 | for any cut index, even a negative or out-of-range one, `slice(0, k)` and `slice(k)` concatenate back to the string |
| JsText.TrimStart | index.js:102 | what is left after the leading white space starts with a character that is not white space |
| JsText.TrimStartSuffix | index.js:102 | the text read is a suffix of the string, and everything dropped in front of it is white space |
| JsText.DigitPrefix | index.js:102 | `parseInt` reads the longest run of decimal digits at the front |
| JsText.ParseInt10 | index.js:102 | `parseInt(s, 10)` is NaN exactly when no decimal digit follows the leading white space and the optional sign; a negative result needs a '-' sign |
| JsText.ParseInt | lib/tessel_2/driver.js:116 | `parseInt(s)` with no radix reads exactly as `parseInt(s, 10)` unless "0x" or "0X" follows the sign; with that prefix it is NaN exactly when no hexadecimal digit follows |
| JsText.ParseIntIntegerText | lib/tessel_2/driver.js:116 | with no radix too, the decimal text of an integer below 10^21 in magnitude reads back as that integer |
| JsText.HexVectors | lib/tessel_2/driver.js:116 | with no radix "0x1A" reads as 26, "-0x10" as -16 and "0x" alone as NaN; with radix 10 "0x1A" reads as 0 |
| JsText.LeadingSpaceVector | index.js:102 | " \t-42x" reads as -42: white space is skipped before the sign, and reading stops at the first non-digit |
| JsText.DecimalFractionVector | lib/tessel_2/driver.js:116 | an altitude text with a fraction, "545.4", reads as 545 |
| JsText.NoLeadingDigitIsNaN | index.js:102-108 | a string that starts with neither white space, a sign nor a digit reads as NaN, so the poll time falls back to its default |
| JsText.ParseIntegerText | index.js:102 | `parseInt(String(n), 10)` gives back every integer below 10^21 in magnitude |
| PollTime.Clamp | index.js:103-121 | NaN becomes 2000; below 2000 becomes 2000; above 60000 becomes 60000; in-range values are kept |
| PollTime.SetPollTime | index.js:101-124 | after any `setPollTime`, `getPollTime` lies in [2000, 60000], whatever the previous value was |
| PollTime.SetNumber | index.js:109-122 | an integral Number argument below 10^21 in magnitude is stored unchanged when in range; smaller ones give 2000, larger ones 60000 |
| PollTime.ResetIsNoOp | index.js:101-123 | setting the value `getPollTime` returns changes nothing (the clamp is idempotent) |
| PollTime.NumberVectors | test/getSetPollTime.js:19-26 | 4473 is kept |
| PollTime.SmallNumberVectors | test/getSetPollTime.js:28-42 | 1999 and 55 give 2000 |
| PollTime.LargeNumberVectors | test/getSetPollTime.js:44-58 | 60001 and 8899983 give 60000 |
| PollTime.NotANumberVectors | test/getSetPollTime.js:60-81 | "testing", an object and a function all read as NaN and give 2000 |
| FixPolling.Datestamp | lib/tessel_1/driver.js:136-147 | a report carries a datestamp in the Tessel 1 file, the date read for that report, and none in `index.js` |
| FixPolling.Tick | index.js:130-160 | a poll with a fix sets `hasFix` and reports coordinates (with the first time and date readings), altitude (with the second ones) and fix, in that order; a poll without a fix reports 'dropped' when a fix was held and nothing else; the next poll is armed last, with the poll time held when the poll began |
| FixPolling.Step | index.js:101-160 | a poll sets `hasFix` to its reading and keeps the poll time; a `setPollTime` call between polls reports nothing, keeps `hasFix` and leaves a delay in [2000, 60000] |
| FixPolling.Run | index.js:130-160 | over any inputs, every poll adds at least its re-arm to the trace; with no poll nothing is reported and `hasFix` is unchanged |
| FixPolling.DroppedPerFall | index.js:149-156 | over any sequence of polls and poll-time changes, 'dropped' is reported once per fix-to-no-fix change (counted independently, from the last poll back) |
| FixPolling.LatestFix | index.js:134-151 | after any sequence of polls, `hasFix` equals the latest poll's reading, or is unchanged when nothing was polled |
| FixPolling.FromReady | index.js:97-159 | polling from `isReady` (no fix, poll time 2000) re-arms only with delays in [2000, 60000], and reports no 'dropped' before some poll has seen a fix |
| FixPolling.RearmInRange | index.js:158-159 | every poll is re-armed with a delay in [2000, 60000] ms, whatever `setPollTime` calls came in between |
| PowerToggle.SwitchState | lib/common.js:13 | only the string 'on' asks for on; the state to leave is 'off' exactly then |
| PowerToggle.AnyOtherRequestIsOff | lib/common.js:13 | any request other than 'on' behaves exactly like 'off' |
| PowerToggle.Power | lib/common.js:3-36 | there is one pulse (high, 250 ms, low) exactly when the tracked state is the one to leave; otherwise the continuation runs at once; after a pulse the continuation runs 500 ms later, and only if the tracked state is unchanged |
| PowerToggle.PowerThen | lib/common.js:17-35 | with the continuation's actions spliced in, the trace is exactly one of three shapes, and the continuation, when it runs, closes the trace |
| PowerToggle.PowerOn | lib/common.js:60-75 | 'power-on' is emitted before the user callback, after a pulse only when the tracked state was 'off' |
| PowerToggle.PowerOff | lib/common.js:3-57 | tracked as 'off': no pulse, the user callback and then 'powerOff' at once; tracked as 'on': high, 250 ms, low, 500 ms, then the user callback and 'powerOff', which is deferred and so comes after it; if the tracked state changed while the pin was high, the pulse is abandoned after the pin goes low and nothing else happens |
| PowerToggle.PowerOffIndex | index.js:163-215 | the `index.js` variant gives the same three traces, except that 'power-off' is emitted synchronously, before the user callback |
| RetryBringUp.ReadyActions | index.js:37-53 | `isReady` emits 'ready' once and first, then starts the fix polling, and ends with the constructor's callback, called once exactly when one was given; it never pulses and never reports an error |
| RetryBringUp.CallbackIffReady | index.js:50-75 | over any sequence of checks, the constructor's callback is called exactly when one was given and 'ready' is emitted; the not-found failure never calls it |
| RetryBringUp.Attempt | index.js:56-82 | an attempt pulses exactly when the tracked state is 'off', and neither readies, fails nor calls the constructor's callback |
| RetryBringUp.Step | index.js:64-94 | `powerState` becomes 'on' on every non-empty receive of a live check, and goes from 'off' to 'on' only on one; the initial empty check leaves it as it was, and each empty check of an attempt leaves it 'off'; 'ready' needs data; the constructor's callback runs only alongside 'ready'; a finished bring-up ignores further checks |
| RetryBringUp.Run | index.js:56-94 | over any checks, a finished bring-up stays finished, `powerState` goes from 'off' to 'on' only if some check received data, and the user's callback is kept |
| RetryBringUp.ErrorIffBudgetEmpty | index.js:70-78 | from any reachable state, the error is emitted exactly when the next "budget" checks are all empty |
| RetryBringUp.ErrorIffFiveEmptyChecks | index.js:73-76 | 'Could not find GPS module' is emitted exactly when the initial check and the checks after four pulses are all empty |
| RetryBringUp.ReadyOnceAfterData | index.js:66-69 | 'ready' is emitted at most once, and exactly when data arrives within the remaining budget |
| RetryBringUp.ReadyOnlyAfterData | lib/tessel_1/driver.js:56-94 | from construction, 'ready' is emitted at most once, and exactly when one of the first five checks receives data |
| RetryBringUp.PulsesWithinBudget | index.js:60-77 | no more pulses happen than the budget of remaining attempts |
| RetryBringUp.AtMostFourPulses | lib/tessel_1/driver.js:73-77 | bring-up pulses the power pin at most four times |
| SirfFrame.Checksum | lib/tessel_2/driver.js:284 | the checksum is the payload byte sum modulo 2^15 |
| SirfFrame.Frame | lib/tessel_2/driver.js:282-284 | a frame is A0 A2, the 15-bit length, the payload, the 15-bit checksum, B0 B3 |
| SirfFrame.Unframe | lib/tessel_2/driver.js:282-284 | reading a frame back yields its payload only when the start, end, length and checksum all agree |
| SirfFrame.UnframeFrame | lib/tessel_2/driver.js:282-284 | unframing a framed payload gives the payload back |
| SirfFrame.FrameUnframe | lib/tessel_2/driver.js:282-284 | every message that unframes is exactly the frame of its payload |
| SirfFrame.Decode | lib/tessel_2/driver.js:282-283 | a Message ID 129 payload is accepted exactly when it is 24 bytes long and starts with 0x81 |
| SirfFrame.DecodeEncode | lib/tessel_2/driver.js:282-283 | decoding an encoded Message ID 129 gives its mode, rates and baud back |
| SirfFrame.EncodeDecode | lib/tessel_2/driver.js:282-283 | every payload that decodes is the encoding of what it decodes to |
| SirfFrame.SwitchFrameIsWellFormed | lib/tessel_2/driver.js:282-290 | the driver's 32 bytes are the frame of the Message ID 129 encoding of "GGA, GSA, RMC each second, GSV every 5 s, at 9600 baud": length 0x0018, checksum 0x013A equal to the payload sum |
| ProbeBringUp.Start | lib/tessel_2/driver.js:208-250 | construction opens the UART at 115200 baud with the module marked off, listening, and only the first window armed |
| ProbeBringUp.Constructed | lib/tessel_2/driver.js:42-54 | on success parsing starts and 'ready' follows; on failure 'error' is emitted; either way the user callback is called with no argument |
| ProbeBringUp.AfterPowerOn | lib/tessel_2/driver.js:252-266 | `powerOn`'s continuation emits 'power-on'; only while the module is still marked off does it arm the final window and make it `noReceiveTimeout`, the timer a byte cancels; otherwise nothing changes |
| ProbeBringUp.Step | lib/tessel_2/driver.js:214-268 | no byte or timer changes whether the user passed a callback; what each input does is stated by `StepFacts`, `TimerFacts` and `PulseTimerFacts` |
| ProbeBringUp.PulseMatchesPowerOn | lib/common.js:3-36 | the first window's chain of timers (pin high, pin low, 'power-on') is `powerOn` of a module tracked as off throughout, with the delays left out |
| ProbeBringUp.StepFacts | lib/tessel_2/driver.js:214-225 | only a byte taken by the listener changes the power state, and it turns the module on; it writes the frame, then reopens the UART at 9600, then reports success; once the listener is gone, bytes do nothing |
| ProbeBringUp.TimerFacts | lib/tessel_2/driver.js:227-268 | expired or cancelled timers do nothing; only the first window, with the module off, pulses the pin; only the final window reports failure; no timer brings the listener back |
| ProbeBringUp.PulseTimerFacts | lib/common.js:22-32 | when the pulse ends the pin goes low, and the settle delay is armed only if the module is still marked off; when the delay ends 'power-on' is emitted, and the final window is armed, as the timer a byte cancels, only if the module is still marked off |
| ProbeBringUp.ConnectedQuiet | lib/common.js:22-32 | once a byte has been taken, the timers left from an unfinished pulse can only lower the pin and emit 'power-on'; with no settle delay pending, only lower the pin |
| ProbeBringUp.ByteDuringPulseConnects | lib/common.js:22-32 | a byte while the pin is high connects right after the pin went high; afterwards there is no 'power-on' and no failure report, whatever follows |
| ProbeBringUp.ByteDuringSettleConnects | lib/tessel_2/driver.js:252-266 | a byte during the settle delay connects after the pulse; 'power-on' may still follow, but no further pulse and no failure report |
| ProbeBringUp.ByteInFinalWindowConnects | lib/tessel_2/driver.js:214-225 | a byte in the final window clears it: the trace is exactly the pulse, 'power-on' and the connection, whatever follows, with no failure report |
| ProbeBringUp.FirstByteConnects | lib/tessel_2/driver.js:214-225 | a byte in the first window connects with no power pulse, ever, and nothing else happens afterwards |
| ProbeBringUp.ReopenMatchesFrame | lib/tessel_2/driver.js:282-290 | the UART is reopened at the baud the written frame asks the module to switch to |
| ProbeBringUp.NoDataFails | lib/tessel_2/driver.js:227-268 | with no byte at all: one pulse, 'power-on', then 'error' with 'Unable to connect to module...'; the listener stays registered |
| ProbeBringUp.LateByteConnectsAfterFailure | lib/tessel_2/driver.js:245-247 | a byte after the failure report still reaches the one-shot listener: the user sees both 'error' and 'ready', and the callback runs twice |
| ProbeBringUp.BringUpBounds | lib/tessel_2/driver.js:200-269 | for any interleaving of bytes and timers: at most one pulse, one failure report and one success report, and a failure only after a pulse |
| ProbeBringUp.PowerOnOnlyByData | lib/tessel_2/driver.js:219-221 | `powerState` turns on only when a byte reaches the listener |
| CoordFormat.SetCoordinateFormat | lib/tessel_2/driver.js:298-356 | null and non-object arguments throw; exactly the four names are taken over; other values leave the options unchanged and pass an Error to the callback; 'utm' without a zone or with zone 0 gets zone 10 |
| CoordFormat.TextIsFormatRecord | lib/tessel_2/driver.js:313-322 | a bare string argument behaves exactly like `{format: string}` |
| CoordFormat.KeepsSettled | lib/tessel_2/driver.js:331-350 | the default options hold a valid name, and every call keeps them valid (with a usable zone under 'utm') |
| CoordFormat.Idempotent | lib/tessel_2/driver.js:331-350 | passing back the options a call produced changes nothing and is accepted |
| Coordinates.SplitField | lib/tessel_2/driver.js:139-144 | the degree text and the minute text concatenate back to the field; with the point at index d ≥ 2 they are the text before and from d - 2 |
| Coordinates.SplitAtPoint | lib/tessel_2/driver.js:139-144 | a field whose first point is at index d splits two characters before it |
| Coordinates.SplitExamples | test/emitCoordinate.js:32-34 | '4747.9760' splits into '47' and '47.9760'; '12205.0757' into '122' and '05.0757' |
| Coordinates.Field | lib/tessel_2/driver.js:150-190 | an array report has 4 elements for deg-min-sec, 2 for deg-dec and 3 otherwise, numbers first and the pole last |
| Coordinates.Signed | lib/tessel_2/driver.js:172-181 | a field is negated for the UTM projection exactly when its pole is 'S' (latitude) or 'W' (longitude) |
| Coordinates.CoordinatesOf | lib/tessel_2/driver.js:126-198 | coordinates are reported exactly when both poles are non-empty and both fields present; 'utm' reports northing and easting of the signed pair in the configured zone; other formats report arrays of the right length with the pole last |
| Coordinates.DegMinDecKeepsText | lib/tessel_2/driver.js:187-190 | in the default format the reported degree and minute texts concatenate to the field |
| Coordinates.DefaultReport | lib/tessel_2/driver.js:187-193 | with the default options a reportable sentence gives `[deg, min, pole]` per field |
| Coordinates.ExampleReport | test/emitCoordinate.js:27-42 | the test's sentence reports `[47, 47.9760, 'N']` and `[122, 05.0757, 'W']` |
| Packets.Altitude | lib/tessel_2/driver.js:107-123 | an altitude is reported, deferred, exactly when the sentence has one, as `parseInt` of its text with no radix, and with the sentence's timestamp |
| Packets.AltitudeOfIntegerText | lib/tessel_2/driver.js:113-120 | an altitude written as the decimal text of an integer is reported as that integer |
| Packets.CoordinatesLater | lib/tessel_2/driver.js:194-196 | the coordinates report is deferred and present exactly when the sentence is reportable |
| Packets.OnPacket | lib/tessel_2/driver.js:73-99 | only packets starting with '$' that parse produce anything; the sentence-type event comes at once; coordinates then altitude are deferred |
| Packets.Turn | lib/tessel_2/driver.js:73-99 | within one turn there is at most one sentence-type event per packet, and at most two deferred reports per sentence-type event |
| Packets.TurnKinds | lib/tessel_2/driver.js:92-96 | within one turn, synchronous events are all sentence-type events and deferred ones never are |
| Packets.TypedBeforeReports | lib/tessel_2/driver.js:92-96 | within one turn every sentence-type event is observed before any coordinates or altitude report, even one from an earlier packet |
| Packets.TurnCons | lib/tessel_2/driver.js:73-99 | a packet handed over before others contributes its type event ahead of theirs and its deferred reports ahead of theirs |
| Packets.TurnSplit | lib/tessel_2/driver.js:90-121 | packets handed over in two groups within one turn give both groups' type events, then the first group's deferred reports, then the second's, since setImmediate runs callbacks in the order they were queued |
| Packets.TwoPacketOrder | lib/tessel_2/driver.js:90-121 | two packets in one turn are observed as both type events, then the first packet's reports, then the second's |
| Packets.SinglePacketOrder | lib/tessel_2/driver.js:92-96 | a packet on its own turn is observed as its type event, then its coordinates, then its altitude |

## Left out

- The packetizer (`./packetizer`) and `nmea.parse` are not part of this model. A parse result is an abstract record (`Nmea.Datum`), and the parser is a function parameter.
- Floating point: `parseFloat`, the deg-dec division, the deg-min-sec seconds (which depend on `Number.prototype.toString` and `* 0.6`) and the UTM projection of the `coordinator` library are symbolic `Nmea.Num` terms naming the computation.
- The hardware bindings (`hw.swuart_*`, `hw.gps_*`, the UART and pin objects) become inputs (receive results, fix readings, bytes) and output actions.
- Real timer durations and EventEmitter internals. Timers are ordered events. Node's throwing on an 'error' event that has no listener is not modelled.
- PollTime.SetNumber: covers integers below 10^21 in magnitude only. From 10^21 up, `String(n)` uses exponent form, so `setPollTime(1e21)` reads "1e+21" as 1 and gives 2000, not 60000.
- `PollTime.SetPollTime` takes the argument's string form, and `JsText.IntegerText` gives that form only for integers below 10^21 in magnitude. Larger Numbers, fractions and exponent forms (`String(1e21)` is "1e+21", which reads as 1) are not modelled.
- FixPolling.Tick: `_checkConnection` reads `getPollTime()` after its reports are emitted, so a listener that calls `setPollTime` while handling one of them changes the delay of that same re-arm. Listener code is not modelled; the model arms with the poll time held when the poll began.
- `JsText.ParseInt` and `JsText.ParseInt10` give the exact integer. A Number rounds digit runs beyond about 15 significant digits, and very long ones become Infinity; this rounding is not modelled.
- Strings are sequences of code points, not UTF-16 code units, so `indexOf`, `slice` and `parseInt` index by code point. The driver handles ASCII NMEA text, where the two agree.
- `setPollTime` returns the driver object for chaining. Object identity is not modelled.
- `CoordFormat.SetCoordinateFormat` has these limits:
  - format values other than strings, and zones other than integers, are not modelled;
  - loose `!=` coercion is not modelled;
  - the stored options object is a value, so the caller's object being the same object (and mutated by the zone default) is not modelled.
- `_emitAltitude` overwrites `parsed.alt` on the shared parse result, which a listener of the sentence-type event could observe later. This aliasing is not modelled.
- The Tessel 1 retry loop reads `swuart_receive()` once per check. Buffered data is not modelled beyond "empty or not".
- Debug logging, the `exports.debug == 2` NMEA dump interval, and `console.warn` for the deprecated string argument are not modelled.
- The `_power` continuation is always a function in the driver (its only callers pass one), so `setTimeout(undefined, 500)` is not modelled.
- The example programs and `tests/test.js` target another API (`connect`, `getSatellites`, `geofence`) and are not part of this model.

=== FILE: coordformat.dfy ===
/** `setCoordinateFormat` of the Tessel 2 driver (lib/tessel_2/driver.js):
    choosing how coordinates are reported. */
module CoordFormat {
  import opened Wrappers

  /** The driver's `options`: the format name (None when the property is
      absent) and the UTM zone (None when absent). */
  datatype Options = Options(format: Option<string>, zone: Option<int>)

  const UtmFormat := "utm"
  const DegMinSec := "deg-min-sec"
  const DegDec := "deg-dec"
  const DegMinDec := "deg-min-dec"
  const DefaultUtmZone := 10

  /** The options a new driver starts with. */
  const Defaults := Options(Some(DegMinDec), None)

  predicate IsFormatName(f: Option<string>) {
    f == Some(UtmFormat) || f == Some(DegMinSec) || f == Some(DegDec) || f == Some(DegMinDec)
  }

  /** What the caller may pass as the first argument: a bare string (the
      deprecated style), an options object, `null`, or anything else that is
      not an object (a number, a function, `undefined`, ...). */
  datatype Argument = Text(text: string) | Record(options: Options) | Null | NotAnObject

  /** The call either throws (the `null` argument reads a property of null;
      the not-an-object branch reaches the undeclared `self`), or completes
      with the driver's new options and what the callback received: nothing
      when no callback function was passed, otherwise `undefined` or an
      "Invalid format" Error. */
  datatype Reply = NoCallback | CalledBack(invalidFormat: bool)
  datatype Outcome = Thrown | Completed(options: Options, reply: Reply)

  /** A zone JavaScript reads as false: missing or 0. */
  predicate FalsyZone(z: Option<int>) {
    z.None? || z == Some(0)
  }

  /** Options the driver can hold: one of the four names, and a usable zone with 'utm'. */
  predicate Settled(o: Options) {
    IsFormatName(o.format) && (o.format == Some(UtmFormat) ==> !FalsyZone(o.zone))
  }

  /** The options object the call works with: a bare string becomes `{format: s}`. */
  function Requested(arg: Argument): Options
    requires arg.Text? || arg.Record?
  {
    if arg.Text? then Options(Some(arg.text), None) else arg.options
  }

  function SetCoordinateFormat(current: Options, arg: Argument, hasCallback: bool): (r: Outcome)
    // exactly the null and not-an-object arguments throw
    ensures r.Thrown? <==> arg.Null? || arg.NotAnObject?
    // one of the four names is taken over; anything else leaves the options alone
    ensures r.Completed? && IsFormatName(Requested(arg).format) ==>
      r.options.format == Requested(arg).format
    ensures r.Completed? && !IsFormatName(Requested(arg).format) ==> r.options == current
    // a callback function hears an error exactly when the name was refused
    ensures r.Completed? ==>
      r.reply == (if hasCallback then CalledBack(!IsFormatName(Requested(arg).format)) else NoCallback)
    // 'utm' fills in zone 10 when the zone is missing or 0, and keeps any other zone
    ensures r.Completed? && Requested(arg).format == Some(UtmFormat) ==>
      r.options.zone == (if FalsyZone(Requested(arg).zone) then Some(DefaultUtmZone) else Requested(arg).zone)
    // the other three names replace the options by the argument as given
    ensures r.Completed? && IsFormatName(Requested(arg).format) && Requested(arg).format != Some(UtmFormat) ==>
      r.options == Requested(arg)
  {
    match arg
    case Null => Thrown
    case NotAnObject => Thrown
    case Text(s) => Apply(current, Options(Some(s), None), hasCallback)
    case Record(o) => Apply(current, o, hasCallback)
  }

  function Apply(current: Options, o: Options, hasCallback: bool): Outcome {
    var next :=
      if o.format == Some(UtmFormat) then
        (if FalsyZone(o.zone) then o.(zone := Some(DefaultUtmZone)) else o)
      else if o.format != Some(DegMinSec) && o.format != Some(DegDec) && o.format != Some(DegMinDec) then
        current
      else o;
    var invalid := o.format != Some(UtmFormat) && o.format != Some(DegMinSec)
      && o.format != Some(DegDec) && o.format != Some(DegMinDec);
    Completed(next, if hasCallback then CalledBack(invalid) else NoCallback)
  }

  /** The deprecated string argument behaves exactly like `{format: s}`. */
  lemma TextIsFormatRecord(current: Options, s: string, hasCallback: bool)
    ensures SetCoordinateFormat(current, Text(s), hasCallback)
      == SetCoordinateFormat(current, Record(Options(Some(s), None)), hasCallback)
  {
  }

  /** The defaults are settled, and every call keeps the options settled. */
  lemma KeepsSettled(current: Options, arg: Argument, hasCallback: bool)
    requires Settled(current)
    ensures Settled(Defaults)
    ensures var r := SetCoordinateFormat(current, arg, hasCallback);
      r.Completed? ==> Settled(r.options)
  {
  }

  /** Passing back the options a call produced changes nothing and is accepted. */
  lemma Idempotent(current: Options, arg: Argument, hasCallback: bool)
    requires SetCoordinateFormat(current, arg, hasCallback).Completed?
    requires Settled(current)
    ensures var o := SetCoordinateFormat(current, arg, hasCallback).options;
      SetCoordinateFormat(o, Record(o), hasCallback)
        == Completed(o, if hasCallback then CalledBack(false) else NoCallback)
  {
    var o := SetCoordinateFormat(current, arg, hasCallback).options;
    KeepsSettled(current, arg, hasCallback);
    assert SetCoordinateFormat(o, Record(o), hasCallback) == Apply(o, o, hasCallback);
  }
}

=== FILE: coordinates.dfy ===
/** How the Tessel 2 driver turns a parsed sentence's latitude and longitude
    fields into a 'coordinates' report (`_emitCoordinates`,
    lib/tessel_2/driver.js). NMEA 0183 writes a latitude as `ddmm.mmmm` and a
    longitude as `dddmm.mmmm`: the degrees are everything up to two
    characters before the decimal point. */
module Coordinates {
  import opened Wrappers
  import opened JsText
  import opened Nmea
  import opened CoordFormat

  /** One element of a reported coordinate array. */
  datatype Part = Number(n: Num) | Pole(letter: Option<string>)

  /** An array such as `[deg, min, pole]`, or the single UTM number. */
  datatype Coordinate = Parts(parts: seq<Part>) | Projected(n: Num)

  datatype Report = Report(lat: Coordinate, lon: Coordinate, timestamp: Num)

  /** `s.slice(0, d - 2)` and `s.slice(d - 2)` with `d = s.indexOf('.')`:
      the degree text and the minute text. */
  function SplitField(s: string): (parts: (string, string))
    ensures parts.0 + parts.1 == s
    ensures var d := IndexOf(s, '.');
      d >= 2 ==> parts.0 == s[..d - 2] && parts.1 == s[d - 2..]
    // the minute text keeps the two whole-minute digits and the decimal point
    ensures var d := IndexOf(s, '.');
      d >= 2 ==> |parts.1| >= 3 && parts.1[2] == '.' && '.' !in parts.0
  {
    var d := IndexOf(s, '.');
    SliceSplit(s, d - 2);
    (Slice(s, 0, d - 2), Slice(s, d - 2, |s|))
  }

  /** `d` is the index of the first decimal point of `s`, at least 2. */
  predicate PointAt(s: string, d: nat) {
    2 <= d < |s| && s[d] == '.' && forall i :: 0 <= i < d ==> s[i] != '.'
  }

  /** Where the decimal point is known, the split falls two characters before it. */
  lemma SplitAtPoint(s: string, d: nat, deg: string, min: string)
    requires PointAt(s, d) && deg == s[..d - 2] && min == s[d - 2..]
    ensures SplitField(s) == (deg, min)
  {
    assert '.' !in s[..d];
    assert IndexOf(s, '.') == d;
  }

  lemma LatitudeExampleText(lat: string)
    requires lat == "4747.9760"
    ensures PointAt(lat, 4) && lat[..2] == "47" && lat[2..] == "47.9760"
  {
  }

  lemma LongitudeExampleText(lon: string)
    requires lon == "12205.0757"
    ensures PointAt(lon, 5) && lon[..3] == "122" && lon[3..] == "05.0757"
  {
  }

  /** The example fields of test/emitCoordinate.js: the decimal point sits at
      a different index in the latitude and in the longitude. */
  lemma SplitExamples(lat: string, lon: string)
    requires lat == "4747.9760" && lon == "12205.0757"
    ensures SplitField(lat) == ("47", "47.9760")
    ensures SplitField(lon) == ("122", "05.0757")
  {
    LatitudeExampleText(lat);
    SplitAtPoint(lat, 4, "47", "47.9760");
    LongitudeExampleText(lon);
    SplitAtPoint(lon, 5, "122", "05.0757");
  }

  /** Coordinates are reported only with both pole fields non-empty (an
      absent pole passes) and both coordinate fields present. */
  predicate Reportable(d: Datum) {
    d.latPole != Some("") && d.lonPole != Some("") && d.lon.Some? && d.lat.Some?
  }

  /** The array for one field in the formats that report arrays. */
  function Field(text: string, pole: Option<string>, format: Option<string>): (c: Coordinate)
    ensures c.Parts? && |c.parts| >= 2 && c.parts[|c.parts| - 1] == Pole(pole)
    ensures forall i :: 0 <= i < |c.parts| - 1 ==> c.parts[i].Number?
    ensures |c.parts| == (if format == Some(DegMinSec) then 4 else if format == Some(DegDec) then 2 else 3)
  {
    var (deg, min) := SplitField(text);
    if format == Some(DegMinSec) then
      Parts([Number(FloatOf(Some(deg))), Number(WholeMinutes(min)), Number(Seconds(min)), Pole(pole)])
    else if format == Some(DegDec) then
      Parts([Number(DecimalDegrees(deg, min)), Pole(pole)])
    else
      Parts([Number(FloatOf(Some(deg))), Number(FloatOf(Some(min))), Pole(pole)])
  }

  /** A field in signed decimal degrees: southern latitudes and western
      longitudes are negated before the UTM projection. */
  function Signed(text: string, pole: Option<string>, negative: string): (n: Num)
    ensures n.Negated? <==> pole == Some(negative)
  {
    var (deg, min) := SplitField(text);
    if pole == Some(negative) then Negated(DecimalDegrees(deg, min)) else DecimalDegrees(deg, min)
  }

  /** The report for a parsed sentence under the current options, or None
      when nothing is reported. */
  function CoordinatesOf(d: Datum, options: Options): (r: Option<Report>)
    ensures r.Some? <==> Reportable(d)
    ensures r.Some? ==> r.value.timestamp == FloatOf(d.timestamp)
    // 'utm' reports the projection's northing and easting as plain numbers
    ensures r.Some? && options.format == Some(UtmFormat) ==>
      r.value.lat.Projected? && r.value.lon.Projected?
      && r.value.lat.n.Northing? && r.value.lon.n.Easting?
      && r.value.lat.n.zone == options.zone == r.value.lon.n.zone
      && r.value.lat.n.lat == r.value.lon.n.lat && r.value.lat.n.lon == r.value.lon.n.lon
      && (r.value.lat.n.lat.Negated? <==> d.latPole == Some("S"))
      && (r.value.lat.n.lon.Negated? <==> d.lonPole == Some("W"))
    // every other format reports arrays of 4, 2 or 3 elements with the pole last
    ensures r.Some? && options.format != Some(UtmFormat) ==>
      r.value.lat.Parts? && r.value.lon.Parts?
      && |r.value.lat.parts| == |r.value.lon.parts|
         == (if options.format == Some(DegMinSec) then 4 else if options.format == Some(DegDec) then 2 else 3)
      && r.value.lat.parts[|r.value.lat.parts| - 1] == Pole(d.latPole)
      && r.value.lon.parts[|r.value.lon.parts| - 1] == Pole(d.lonPole)
  {
    if !Reportable(d) then None
    else
      var timestamp := FloatOf(d.timestamp);
      if options.format == Some(UtmFormat) then
        var lat := Signed(d.lat.value, d.latPole, "S");
        var lon := Signed(d.lon.value, d.lonPole, "W");
        Some(Report(Projected(Northing(lat, lon, options.zone)), Projected(Easting(lat, lon, options.zone)), timestamp))
      else
        Some(Report(Field(d.lat.value, d.latPole, options.format), Field(d.lon.value, d.lonPole, options.format), timestamp))
  }

  /** In the default format the reported degree and minute texts are the
      field cut in two: nothing is lost or duplicated. */
  lemma DegMinDecKeepsText(d: Datum, options: Options)
    requires Reportable(d) && options.format == Some(DegMinDec)
    ensures var r := CoordinatesOf(d, options).value;
      r.lat.parts[0].n.text.value + r.lat.parts[1].n.text.value == d.lat.value
      && r.lon.parts[0].n.text.value + r.lon.parts[1].n.text.value == d.lon.value
  {
  }

  /** With the default options a reportable sentence gives `[deg, min, pole]`
      for each field, from the two halves of its text. */
  lemma DefaultReport(d: Datum, lat: (string, string), lon: (string, string))
    requires Reportable(d) && SplitField(d.lat.value) == lat && SplitField(d.lon.value) == lon
    ensures CoordinatesOf(d, Defaults) == Some(Report(
      Parts([Number(FloatOf(Some(lat.0))), Number(FloatOf(Some(lat.1))), Pole(d.latPole)]),
      Parts([Number(FloatOf(Some(lon.0))), Number(FloatOf(Some(lon.1))), Pole(d.lonPole)]),
      FloatOf(d.timestamp)))
  {
  }

  /** The example fix of test/emitCoordinate.js reports `[47, 47.976, 'N']`
      and `[122, 5.0757, 'W']`, read from the texts below. */
  lemma ExampleReport(d: Datum)
    requires d == Datum("nav-info", Some("4747.9760"), Some("N"), Some("12205.0757"), Some("W"), None, Some("191742.339"))
    ensures CoordinatesOf(d, Defaults) == Some(Report(
      Parts([Number(FloatOf(Some("47"))), Number(FloatOf(Some("47.9760"))), Pole(Some("N"))]),
      Parts([Number(FloatOf(Some("122"))), Number(FloatOf(Some("05.0757"))), Pole(Some("W"))]),
      FloatOf(Some("191742.339"))))
  {
    SplitExamples(d.lat.value, d.lon.value);
    DefaultReport(d, ("47", "47.9760"), ("122", "05.0757"));
  }
}

=== FILE: effects.dfy ===
/** Observable actions of the driver, shared by the power-pulse and
    bring-up machines. A trace (`seq<Action>`) lists them in the order
    they happen. */
module Effects {
  import opened Wrappers

  /** One byte on the UART. */
  type byte = x: int | 0 <= x < 256

  /** Events that carry no payload. */
  datatype Signal = ReadySignal | PowerOnSignal | PowerOffSignal | PowerOffDashSignal {
    /** The event name the source emits. */
    function Name(): string {
      match this
      case ReadySignal => "ready"
      case PowerOnSignal => "power-on"
      case PowerOffSignal => "powerOff"
      case PowerOffDashSignal => "power-off"
    }
  }

  /** The Errors bring-up reports. */
  datatype Failure = NotFound | NoConnection {
    /** The Error's message in the source. */
    function Message(): string {
      match this
      case NotFound => "Could not find GPS module"
      case NoConnection => "Unable to connect to module..."
    }
  }

  /** Every event has its own name: in particular the 'powerOff' of
      lib/common.js and the 'power-off' of index.js are different events. */
  lemma NamesDistinct(a: Signal, b: Signal)
    ensures a.Name() == b.Name() ==> a == b
  {
    assert "powerOff"[5] != "power-off"[5];
  }

  /** The two bring-up failures carry different messages. */
  lemma MessagesDistinct(a: Failure, b: Failure)
    ensures a.Message() == b.Message() ==> a == b
  {
    assert "Could not find GPS module"[0] != "Unable to connect to module..."[0];
  }

  datatype Action =
    | PinHigh                          // onOff.output().high()
    | PinLow                           // onOff.low()
    | Wait(ms: nat)                    // a setTimeout of `ms` elapses before what follows
    | Resume                           // the continuation handed to `_power` runs
    | Emit(signal: Signal)             // an event without payload
    | EmitError(failure: Failure)      // an 'error' event carrying an Error
    | Callback(error: Option<Failure>) // a caller's callback, with an Error or with none
    | GpsInit                          // hw.gps_init()
    | OpenUart(baud: nat)              // hardware.UART({baudrate}) replaces the UART
    | WriteUart(bytes: seq<byte>)      // uart.write(bytes)
    | StartPolling                     // _checkConnection() arms the first fix poll
    | StartParsing                     // _beginParsing() attaches the packet handler

  /** How often `a` occurs in trace `t`. */
  function Occurrences<T(==)>(t: seq<T>, a: T): (n: nat)
    ensures n == 0 <==> a !in t
    ensures n <= |t|
  {
    if |t| == 0 then 0
    else (if t[0] == a then 1 else 0) + Occurrences(t[1..], a)
  }

  /** Counting over a concatenation adds the counts of the parts. */
  lemma {:induction false} OccurrencesConcat<T>(s: seq<T>, t: seq<T>, a: T)
    ensures Occurrences(s + t, a) == Occurrences(s, a) + Occurrences(t, a)
    decreases |s|
  {
    if |s| > 0 {
      OccurrencesConcat(s[1..], t, a);
      assert (s + t)[0] == s[0];
      assert (s + t)[1..] == s[1..] + t;
    } else {
      assert s + t == t;
    }
  }

  /** A trace with its waits left out: what happens, in order, without the
      delays between. */
  function Untimed(t: seq<Action>): (u: seq<Action>)
    ensures |u| <= |t|
    ensures forall i :: 0 <= i < |u| ==> !u[i].Wait?
  {
    if |t| == 0 then []
    else (if t[0].Wait? then [] else [t[0]]) + Untimed(t[1..])
  }

  /** The callback invocation for an optional user callback called with no error. */
  function UserCallback(present: bool): (t: seq<Action>)
    ensures present <==> Callback(None) in t
    ensures |t| <= 1
  {
    if present then [Callback(None)] else []
  }

  /** Feeds inputs one at a time to a step function and concatenates what
      the steps do. */
  function Drive<S, I>(step: (S, I) -> (S, seq<Action>), s: S, inputs: seq<I>): (S, seq<Action>)
    decreases |inputs|
  {
    if |inputs| == 0 then (s, [])
    else
      var first := step(s, inputs[0]);
      var rest := Drive(step, first.0, inputs[1..]);
      (rest.0, first.1 + rest.1)
  }

  /** Driving through `a + b` is driving through `a`, then through `b`. */
  lemma {:induction false} DriveSplit<S, I>(step: (S, I) -> (S, seq<Action>), s: S, a: seq<I>, b: seq<I>)
    ensures Drive(step, s, a + b).1 == Drive(step, s, a).1 + Drive(step, Drive(step, s, a).0, b).1
    ensures Drive(step, s, a + b).0 == Drive(step, Drive(step, s, a).0, b).0
    decreases |a|
  {
    if |a| == 0 {
      assert a + b == b;
    } else {
      var first := step(s, a[0]);
      assert (a + b)[0] == a[0];
      assert (a + b)[1..] == a[1..] + b;
      DriveSplit(step, first.0, a[1..], b);
      var mid := Drive(step, first.0, a[1..]);
      var tail := Drive(step, mid.0, b).1;
      assert first.1 + (mid.1 + tail) == (first.1 + mid.1) + tail;
    }
  }
}

=== FILE: fixpolling.dfy ===
/** The fix poll of the Tessel 1 driver (`_checkConnection` in index.js and
    lib/tessel_1/driver.js). Each poll reads the receiver's fix register; with
    a fix it reports coordinates, altitude and satellites, without one it
    reports 'dropped' when a fix was held before. Every poll re-arms itself
    with the poll time it finds, so `setPollTime` calls between polls are
    inputs too. */
module FixPolling {
  import opened Wrappers
  import opened Effects
  import PollTime

  /** index.js omits the datestamp that lib/tessel_1/driver.js reports. */
  datatype Variant = IndexJs | Tessel1

  /** One poll's hardware readings (`hw.gps_get_*`), passed through
      unchanged. The time and date getters are called once for each report
      that carries them, so the two reports may see different values. */
  datatype Reading = Reading(
    fix: bool, latitude: real, longitude: real, speed: real,
    coordinatesTime: real, coordinatesDate: real,
    altitude: real, altitudeTime: real, altitudeDate: real,
    satellites: real)

  datatype Event =
    | Coordinates(lat: real, lon: real, speed: real, timestamp: real, datestamp: Option<real>)
    | Altitude(alt: real, timestamp: real, datestamp: Option<real>)
    | Fix(numSat: real)
    | Dropped

  datatype Output = Report(event: Event) | Rearm(ms: int)

  datatype Input = Poll(reading: Reading) | SetPollTime(text: string)

  /** The driver state the poll uses: `hasFix` and the poll time. */
  datatype Poller = Poller(hasFix: bool, pollTime: int)

  /** After `isReady`: no fix yet, the default poll time. */
  const Initial: Poller := Poller(false, PollTime.DefaultPollTime)

  /** The datestamp of a report, given what `gps_get_date()` returned for it. */
  function Datestamp(v: Variant, date: real): (d: Option<real>)
    ensures d.Some? <==> v == Tessel1
    ensures d.Some? ==> d.value == date
  {
    if v == Tessel1 then Some(date) else None
  }

  /** One expiry of the poll timer. */
  function Tick(p: Poller, r: Reading, v: Variant): (res: (Poller, seq<Output>))
    ensures res.0.hasFix == r.fix && res.0.pollTime == p.pollTime
    // with a fix: coordinates, altitude and satellites, in that order
    ensures r.fix ==> |res.1| == 4 && res.1[..3] == [
      Report(Coordinates(r.latitude, r.longitude, r.speed, r.coordinatesTime,
        Datestamp(v, r.coordinatesDate))),
      Report(Altitude(r.altitude, r.altitudeTime, Datestamp(v, r.altitudeDate))),
      Report(Fix(r.satellites))]
    // without a fix: 'dropped' when a fix was held, and nothing else
    ensures !r.fix ==> res.1 == (if p.hasFix then [Report(Dropped)] else []) + [Rearm(p.pollTime)]
    // 'dropped' exactly on a fix-to-no-fix change
    ensures Report(Dropped) in res.1 <==> p.hasFix && !r.fix
    // the next poll is armed last, with the current poll time
    ensures |res.1| >= 1 && res.1[|res.1| - 1] == Rearm(p.pollTime)
    ensures forall i :: 0 <= i < |res.1| - 1 ==> res.1[i].Report?
  {
    var next := Rearm(p.pollTime);
    if r.fix then
      (p.(hasFix := true), [
        Report(Coordinates(r.latitude, r.longitude, r.speed, r.coordinatesTime,
          Datestamp(v, r.coordinatesDate))),
        Report(Altitude(r.altitude, r.altitudeTime, Datestamp(v, r.altitudeDate))),
        Report(Fix(r.satellites)),
        next])
    else
      (p.(hasFix := false), (if p.hasFix then [Report(Dropped)] else []) + [next])
  }

  /** A poll, or a `setPollTime` call between polls. */
  function Step(p: Poller, input: Input, v: Variant): (r: (Poller, seq<Output>))
    ensures input.Poll? ==> r.0.hasFix == input.reading.fix && r.0.pollTime == p.pollTime
    // a poll-time change reports nothing and leaves a usable delay
    ensures input.SetPollTime? ==>
      r.1 == [] && r.0.hasFix == p.hasFix && PollTime.InRange(r.0.pollTime)
  {
    match input
    case Poll(r) => Tick(p, r, v)
    case SetPollTime(text) => (p.(pollTime := PollTime.SetPollTime(text)), [])
  }

  function Run(p: Poller, inputs: seq<Input>, v: Variant): (r: (Poller, seq<Output>))
    // every poll adds at least its re-arm; without polls nothing happens
    ensures |r.1| >= |Fixes(inputs)|
    ensures Fixes(inputs) == [] ==> r.1 == [] && r.0.hasFix == p.hasFix
    decreases |inputs|
  {
    if |inputs| == 0 then (p, [])
    else
      var first := Step(p, inputs[0], v);
      var rest := Run(first.0, inputs[1..], v);
      (rest.0, first.1 + rest.1)
  }

  /** The fix flags of the polls among the inputs, in order. */
  function Fixes(inputs: seq<Input>): seq<bool>
    decreases |inputs|
  {
    if |inputs| == 0 then []
    else (if inputs[0].Poll? then [inputs[0].reading.fix] else []) + Fixes(inputs[1..])
  }

  /** The fix state in force before the `i`-th poll. */
  function Before(prev: bool, fixes: seq<bool>, i: nat): bool
    requires i < |fixes|
  {
    if i == 0 then prev else fixes[i - 1]
  }

  /** Independent count of fix-to-no-fix changes in `prev` followed by
      `fixes`, taken from the last poll backwards. */
  function Falls(prev: bool, fixes: seq<bool>): nat
    decreases |fixes|
  {
    if |fixes| == 0 then 0
    else
      var last := |fixes| - 1;
      Falls(prev, fixes[..last]) + (if Before(prev, fixes, last) && !fixes[last] then 1 else 0)
  }

  lemma {:induction false} FallsCons(prev: bool, f: bool, fixes: seq<bool>)
    ensures Falls(prev, [f] + fixes) == (if prev && !f then 1 else 0) + Falls(f, fixes)
    decreases |fixes|
  {
    var s := [f] + fixes;
    if |fixes| == 0 {
      assert s[..0] == [];
    } else {
      var last := |fixes| - 1;
      FallsCons(prev, f, fixes[..last]);
      assert s[..|s| - 1] == [f] + fixes[..last];
      assert Before(prev, s, |s| - 1) == Before(f, fixes, last);
    }
  }

  lemma StepDrops(p: Poller, input: Input, v: Variant)
    ensures Occurrences(Step(p, input, v).1, Report(Dropped)) ==
      (if input.Poll? && p.hasFix && !input.reading.fix then 1 else 0)
    ensures Step(p, input, v).0.hasFix == (if input.Poll? then input.reading.fix else p.hasFix)
  {
    if input.Poll? && !input.reading.fix {
      if p.hasFix {
        assert Step(p, input, v).1 == [Report(Dropped), Rearm(p.pollTime)];
      }
    }
  }

  lemma RunCons(p: Poller, inputs: seq<Input>, v: Variant)
    requires |inputs| > 0
    ensures Run(p, inputs, v).1 == Step(p, inputs[0], v).1 + Run(Step(p, inputs[0], v).0, inputs[1..], v).1
    ensures Run(p, inputs, v).0 == Run(Step(p, inputs[0], v).0, inputs[1..], v).0
    ensures Fixes(inputs) == (if inputs[0].Poll? then [inputs[0].reading.fix] else []) + Fixes(inputs[1..])
  {
  }

  /** Over any sequence of polls and poll-time changes, 'dropped' is
      reported once per fix-to-no-fix change. */
  lemma {:induction false} DroppedPerFall(p: Poller, inputs: seq<Input>, v: Variant)
    ensures Occurrences(Run(p, inputs, v).1, Report(Dropped)) == Falls(p.hasFix, Fixes(inputs))
    decreases |inputs|
  {
    if |inputs| == 0 {
      assert Fixes(inputs) == [];
    } else {
      var first := Step(p, inputs[0], v);
      var rest := inputs[1..];
      RunCons(p, inputs, v);
      StepDrops(p, inputs[0], v);
      DroppedPerFall(first.0, rest, v);
      OccurrencesConcat(first.1, Run(first.0, rest, v).1, Report(Dropped));
      if inputs[0].Poll? {
        FallsCons(p.hasFix, inputs[0].reading.fix, Fixes(rest));
      } else {
        assert Fixes(inputs) == Fixes(rest);
      }
    }
  }

  /** `hasFix` ends equal to the latest poll's reading, or unchanged when
      nothing was polled. */
  lemma {:induction false} LatestFix(p: Poller, inputs: seq<Input>, v: Variant)
    ensures Run(p, inputs, v).0.hasFix ==
      (if |Fixes(inputs)| == 0 then p.hasFix else Fixes(inputs)[|Fixes(inputs)| - 1])
    decreases |inputs|
  {
    if |inputs| == 0 {
      assert Fixes(inputs) == [];
    } else {
      var rest := inputs[1..];
      RunCons(p, inputs, v);
      LatestFix(Step(p, inputs[0], v).0, rest, v);
      if !inputs[0].Poll? {
        assert Fixes(inputs) == Fixes(rest);
      }
    }
  }

  /** Every poll is armed with a delay in [2000, 60000] ms, whatever the
      calls to `setPollTime` in between. */
  lemma {:induction false} RearmInRange(p: Poller, inputs: seq<Input>, v: Variant)
    requires PollTime.InRange(p.pollTime)
    ensures PollTime.InRange(Run(p, inputs, v).0.pollTime)
    ensures forall o :: o in Run(p, inputs, v).1 && o.Rearm? ==> PollTime.InRange(o.ms)
    decreases |inputs|
  {
    if |inputs| > 0 {
      var first := Step(p, inputs[0], v);
      RearmInRange(first.0, inputs[1..], v);
      assert forall o :: o in first.1 && o.Rearm? ==> o.ms == p.pollTime;
    }
  }

  lemma {:induction false} NoFallsWithoutFix(fixes: seq<bool>)
    requires forall i :: 0 <= i < |fixes| ==> !fixes[i]
    ensures Falls(false, fixes) == 0
    decreases |fixes|
  {
    if |fixes| > 0 {
      var last := |fixes| - 1;
      NoFallsWithoutFix(fixes[..last]);
      assert !Before(false, fixes, last);
    }
  }

  /** Polling as `isReady` starts it, with no fix and the default poll
      time: every re-arm delay is in range, and 'dropped' is never reported
      before some poll has seen a fix. */
  lemma FromReady(inputs: seq<Input>, v: Variant)
    ensures forall o :: o in Run(Initial, inputs, v).1 && o.Rearm? ==> PollTime.InRange(o.ms)
    ensures (forall i :: 0 <= i < |Fixes(inputs)| ==> !Fixes(inputs)[i]) ==>
      Report(Dropped) !in Run(Initial, inputs, v).1
  {
    RearmInRange(Initial, inputs, v);
    DroppedPerFall(Initial, inputs, v);
    if forall i :: 0 <= i < |Fixes(inputs)| ==> !Fixes(inputs)[i] {
      NoFallsWithoutFix(Fixes(inputs));
    }
  }
}

=== FILE: jstext.dfy ===
/** The ECMAScript string builtins the driver's logic depends on:
    `String.prototype.indexOf` for one character, `String.prototype.slice`
    with its relative-index normalisation, `parseInt` with radix 10 and
    with no radix (section 19.2.5 of ECMA-262) and the decimal text of an integral Number. Strings are
    sequences of code points rather than UTF-16 code units. */
module JsText {
  import opened Wrappers

  /** `s.indexOf(c)`: the first index holding `c`, or -1 when there is none. */
  function IndexOf(s: string, c: char): (i: int)
    ensures -1 <= i < |s|
    ensures i == -1 <==> c !in s
    ensures 0 <= i ==> s[i] == c && c !in s[..i]
  {
    if |s| == 0 then -1
    else if s[0] == c then 0
    else
      var j := IndexOf(s[1..], c);
      assert s == [s[0]] + s[1..];
      if j == -1 then -1
      else
        assert s[..j + 1] == [s[0]] + s[1..][..j];
        j + 1
  }

  /** The start or end argument of `slice`, normalised: a negative index
      counts back from the end and stops at 0, a large one stops at `len`. */
  function RelativeIndex(k: int, len: nat): (n: nat)
    ensures n <= len
  {
    if k < 0 then (if len + k < 0 then 0 else len + k)
    else if k < len then k
    else len
  }

  /** `s.slice(start, end)`: empty when the normalised start is not before
      the normalised end. */
  function Slice(s: string, start: int, end: int): (r: string)
    ensures |r| <= |s|
    // in-range indices take the plain substring
    ensures 0 <= start <= end <= |s| ==> r == s[start..end]
    // a negative start counts back: `slice(-k, s.length)` is the last k characters
    ensures -|s| <= start < 0 && end == |s| ==> r == s[|s| + start..]
    // a start past the end, or an end before the start, gives nothing
    ensures start >= |s| || (0 <= end <= start) ==> r == []
  {
    var from := RelativeIndex(start, |s|);
    var to := RelativeIndex(end, |s|);
    if from < to then s[from..to] else []
  }

  /** Cutting a string at any index with two `slice` calls loses nothing:
      the part before and the part after concatenate back to the string. */
  lemma SliceSplit(s: string, k: int)
    ensures Slice(s, 0, k) + Slice(s, k, |s|) == s
  {
    var m := RelativeIndex(k, |s|);
    assert Slice(s, 0, k) == s[..m];
    assert Slice(s, k, |s|) == s[m..];
    assert s[..m] + s[m..] == s;
  }

  /** StrWhiteSpaceChar of ECMA-262: WhiteSpace (TAB, VT, FF, ZWNBSP and the
      Unicode Zs category) or LineTerminator (LF, CR, LS, PS). */
  predicate IsStrWhiteSpace(c: char) {
    var u := c as int;
    || u == 0x09 || u == 0x0B || u == 0x0C || u == 0xFEFF
    || u == 0x20 || u == 0xA0 || u == 0x1680 || (0x2000 <= u <= 0x200A)
    || u == 0x202F || u == 0x205F || u == 0x3000
    || u == 0x0A || u == 0x0D || u == 0x2028 || u == 0x2029
  }

  /** The string with its leading white space removed. */
  function TrimStart(s: string): (t: string)
    ensures |t| <= |s|
    ensures |t| > 0 ==> !IsStrWhiteSpace(t[0])
    decreases |s|
  {
    if |s| > 0 && IsStrWhiteSpace(s[0]) then TrimStart(s[1..]) else s
  }

  /** `TrimStart` keeps a suffix of the string and drops exactly the white
      space in front of it. */
  lemma {:induction false} TrimStartSuffix(s: string)
    ensures var t := TrimStart(s);
      && t == s[|s| - |t|..]
      && forall i :: 0 <= i < |s| - |t| ==> IsStrWhiteSpace(s[i])
    decreases |s|
  {
    if |s| > 0 && IsStrWhiteSpace(s[0]) {
      TrimStartSuffix(s[1..]);
      var t := TrimStart(s[1..]);
      assert s[1..][|s| - 1 - |t|..] == s[|s| - |t|..];
    }
  }

  /** The value of `c` as a digit of a radix up to 36: '0'-'9' are 0-9 and
      the Latin letters of either case are 10-35; any other character is a
      digit of no radix (36). */
  function DigitValue(c: char): (d: nat)
    ensures d <= 36
    ensures d < 10 <==> '0' <= c <= '9'
  {
    if '0' <= c <= '9' then c as int - '0' as int
    else if 'a' <= c <= 'z' then c as int - 'a' as int + 10
    else if 'A' <= c <= 'Z' then c as int - 'A' as int + 10
    else 36
  }

  predicate IsDigit(c: char, radix: nat) {
    DigitValue(c) < radix
  }

  predicate AllDigits(s: string, radix: nat) {
    forall i :: 0 <= i < |s| ==> IsDigit(s[i], radix)
  }

  /** The longest prefix of `s` made of digits of the radix. */
  function DigitPrefix(s: string, radix: nat): (z: string)
    ensures AllDigits(z, radix)
    ensures |z| <= |s| && z == s[..|z|]
    ensures |z| < |s| ==> !IsDigit(s[|z|], radix)
  {
    if |s| == 0 || !IsDigit(s[0], radix) then []
    else [s[0]] + DigitPrefix(s[1..], radix)
  }

  /** The mathematical value of a string of digits of the radix. */
  function Value(z: string, radix: nat): nat
    requires AllDigits(z, radix)
  {
    if |z| == 0 then 0
    else Value(z[..|z| - 1], radix) * radix + DigitValue(z[|z| - 1])
  }

  /** A leading '-' of the text after its white space. */
  predicate Negative(t: string) {
    |t| > 0 && t[0] == '-'
  }

  /** The text after its optional sign. */
  function Unsigned(t: string): string {
    if |t| > 0 && (t[0] == '-' || t[0] == '+') then t[1..] else t
  }

  /** The value of the longest run of digits of the radix at the front of
      `b`; no digit at all gives NaN (`None`). */
  function LeadingValue(b: string, radix: nat): (v: Option<nat>)
    ensures v.None? <==> |b| == 0 || !IsDigit(b[0], radix)
  {
    var z := DigitPrefix(b, radix);
    if |z| == 0 then None else Some(Value(z, radix))
  }

  /** The sign applied to a value read; a negative zero reads as 0. */
  function Signed(negative: bool, v: Option<nat>): Option<int> {
    match v
    case None => None
    case Some(n) => var i: int := n; if negative then Some(-i) else Some(i)
  }

  /** `parseInt(s, 10)` on the string form `s` of the argument: skip leading
      white space, take an optional sign, then the longest run of decimal
      digits. */
  function ParseInt10(s: string): (r: Option<int>)
    // NaN exactly when no decimal digit follows the white space and sign
    ensures var b := Unsigned(TrimStart(s));
      r.None? <==> |b| == 0 || !('0' <= b[0] <= '9')
    ensures r.Some? && r.value < 0 ==> Negative(TrimStart(s))
  {
    var t := TrimStart(s);
    Signed(Negative(t), LeadingValue(Unsigned(t), 10))
  }

  /** "0x" or "0X" at the front of the unsigned text. */
  predicate HexPrefixed(b: string) {
    |b| >= 2 && b[0] == '0' && (b[1] == 'x' || b[1] == 'X')
  }

  /** `parseInt(s)` with no radix: as with radix 10, except that a "0x" or
      "0X" after the sign is skipped and selects radix 16. */
  function ParseInt(s: string): (r: Option<int>)
    // without the prefix it reads exactly as `parseInt(s, 10)`
    ensures !HexPrefixed(Unsigned(TrimStart(s))) ==> r == ParseInt10(s)
    // with it, NaN exactly when no hexadecimal digit follows the prefix
    ensures var b := Unsigned(TrimStart(s));
      HexPrefixed(b) ==> (r.None? <==> |b| == 2 || !IsDigit(b[2], 16))
    ensures r.Some? && r.value < 0 ==> Negative(TrimStart(s))
  {
    var t := TrimStart(s);
    var b := Unsigned(t);
    Signed(Negative(t), if HexPrefixed(b) then LeadingValue(b[2..], 16) else LeadingValue(b, 10))
  }

  /** A string that starts with neither white space, a sign nor a digit
      reads as NaN. */
  lemma NoLeadingDigitIsNaN(s: string)
    requires |s| > 0 && !IsStrWhiteSpace(s[0]) && !('0' <= s[0] <= '9') && s[0] != '-' && s[0] != '+'
    ensures ParseInt10(s) == None
  {
    assert TrimStart(s) == s;
  }

  function DigitChar(d: nat): (c: char)
    requires d < 10
    ensures DigitValue(c) == d
  {
    ('0' as int + d) as char
  }

  /** The decimal digits of `n`, most significant first, no leading zero. */
  function Digits(n: nat): (s: string)
    ensures |s| > 0 && AllDigits(s, 10)
    ensures |s| > 1 ==> s[0] != '0'
  {
    if n < 10 then [DigitChar(n)] else Digits(n / 10) + [DigitChar(n % 10)]
  }

  /** 10^21: below this magnitude an integral Number prints in plain decimal. */
  const PlainLimit: int := 1_000_000_000_000_000_000_000

  /** `String(n)` for an integral Number `n` with |n| < 10^21. */
  function IntegerText(n: int): string {
    if n < 0 then "-" + Digits(-n) else Digits(n)
  }

  lemma {:induction false} ValueOfDigits(n: nat)
    ensures Value(Digits(n), 10) == n
    decreases n
  {
    if n >= 10 {
      var d := Digits(n);
      ValueOfDigits(n / 10);
      assert d[..|d| - 1] == Digits(n / 10);
    }
  }

  lemma {:induction false} DigitPrefixOfDigits(s: string, radix: nat)
    requires AllDigits(s, radix)
    ensures DigitPrefix(s, radix) == s
    decreases |s|
  {
    if |s| > 0 {
      DigitPrefixOfDigits(s[1..], radix);
      assert s == [s[0]] + s[1..];
    }
  }

  /** `parseInt(String(n), 10)` gives `n` back for every integer printed in
      plain decimal. */
  lemma ParseIntegerText(n: int)
    ensures ParseInt10(IntegerText(n)) == Some(n)
  {
    var m: nat := if n < 0 then -n else n;
    var d := Digits(m);
    ValueOfDigits(m);
    DigitPrefixOfDigits(d, 10);
    assert !IsStrWhiteSpace(d[0]);
    if n < 0 {
      var t := "-" + d;
      assert !IsStrWhiteSpace(t[0]);
      assert TrimStart(t) == t;
      assert t[1..] == d;
    } else {
      assert TrimStart(d) == d;
    }
  }

  /** `parseInt(String(n))` with no radix gives `n` back too: the decimal
      text of an integer never starts with "0x". */
  lemma ParseIntIntegerText(n: int)
    ensures ParseInt(IntegerText(n)) == Some(n)
  {
    ParseIntegerText(n);
    var m: nat := if n < 0 then -n else n;
    var d := Digits(m);
    if n < 0 {
      var t := "-" + d;
      assert !IsStrWhiteSpace(t[0]);
      assert TrimStart(t) == t;
      assert Unsigned(t) == d;
    } else {
      assert !IsStrWhiteSpace(d[0]);
      assert TrimStart(d) == d;
    }
  }

  /** Texts on which the two readings part: a hexadecimal prefix, with or
      without a sign, and the prefix alone. */
  lemma HexVectors()
    ensures ParseInt("0x1A") == Some(26)
    ensures ParseInt("-0x10") == Some(-16)
    ensures ParseInt("0x") == None
    ensures ParseInt10("0x1A") == Some(0)
  {
    assert TrimStart("0x1A") == "0x1A";
    assert DigitPrefix("1A", 16) == "1A" by {
      assert DigitPrefix("A", 16) == "A" by { assert "A"[1..] == []; }
      assert "1A"[1..] == "A";
    }
    assert Value("1A", 16) == 26 by { assert "1A"[..1] == "1"; assert "1"[..0] == []; }
    assert TrimStart("-0x10") == "-0x10";
    assert Unsigned("-0x10") == "0x10";
    assert DigitPrefix("10", 16) == "10" by {
      assert DigitPrefix("0", 16) == "0" by { assert "0"[1..] == []; }
      assert "10"[1..] == "0";
    }
    assert Value("10", 16) == 16 by { assert "10"[..1] == "1"; assert "1"[..0] == []; }
    assert TrimStart("0x") == "0x";
    assert DigitPrefix("0x1A", 10) == "0" by { assert "0x1A"[1..] == "x1A"; }
    assert Value("0", 10) == 0 by { assert "0"[..0] == []; }
  }

  /** The altitude field of a GGA sentence carries a fraction, which
      `parseInt` drops. */
  lemma DecimalFractionVector()
    ensures ParseInt("545.4") == Some(545)
  {
    assert TrimStart("545.4") == "545.4";
    assert DigitPrefix("545.4", 10) == "545" by {
      assert "545.4"[1..] == "45.4";
      assert "45.4"[1..] == "5.4";
      assert "5.4"[1..] == ".4";
    }
    assert Value("545", 10) == 545 by {
      assert "545"[..2] == "54";
      assert "54"[..1] == "5";
      assert "5"[..0] == [];
    }
  }
  /** Leading white space is skipped before the sign, and reading stops at
      the first non-digit. */
  lemma LeadingSpaceVector()
    ensures ParseInt10(" \t-42x") == Some(-42)
  {
    assert " \t-42x"[1..] == "\t-42x";
    assert "\t-42x"[1..] == "-42x";
    assert TrimStart("-42x") == "-42x";
    assert TrimStart(" \t-42x") == "-42x";
    assert Unsigned("-42x") == "42x";
    assert DigitPrefix("42x", 10) == "42" by {
      assert "42x"[1..] == "2x";
      assert "2x"[1..] == "x";
    }
    assert Value("42", 10) == 42 by { assert "42"[..1] == "4"; assert "4"[..0] == []; }
  }
}

=== FILE: nmea.dfy ===
/** The part of a parsed NMEA 0183 sentence the Tessel 2 driver reads. The
    parser itself (the `nmea` package) is not part of this model: a parse
    result is an abstract record, and numbers derived from its text stay
    symbolic, naming the computation the driver performs. */
module Nmea {
  import opened Wrappers

  /** The properties of `nmea.parse`'s result that the driver reads; `None`
      stands for a property that is absent (`undefined`). `kind` is the
      sentence's `type`, used as the event name. */
  datatype Datum = Datum(
    kind: string,
    lat: Option<string>, latPole: Option<string>,
    lon: Option<string>, lonPole: Option<string>,
    alt: Option<string>, timestamp: Option<string>)

  /** A number computed from field text. */
  datatype Num =
    | FloatOf(text: Option<string>)              // parseFloat(text); undefined reads as NaN
    | DecimalDegrees(deg: string, min: string)   // parseFloat(deg) + parseFloat(min) / 60
    | WholeMinutes(min: string)                  // the integer part of parseFloat(min)
    | Seconds(min: string)                       // the fraction digits of parseFloat(min) times 0.6
    | Negated(n: Num)                            // -n
    | Northing(lat: Num, lon: Num, zone: Option<int>)  // the UTM projection's northing
    | Easting(lat: Num, lon: Num, zone: Option<int>)   // the UTM projection's easting
}

=== FILE: packets.dfy ===
/** What the Tessel 2 driver does with each packet the packetizer hands it
    (`_beginParsing` and `_emitAltitude`, lib/tessel_2/driver.js). A packet
    starting with '$' is parsed; a successful parse is emitted at once under
    its sentence type, while the 'coordinates' and 'altitude' reports are
    deferred with `setImmediate`, so they come after everything emitted
    synchronously in the same turn of the event loop. */
module Packets {
  import opened Wrappers
  import opened JsText
  import opened Nmea
  import opened CoordFormat
  import opened Coordinates

  datatype Event =
    | Typed(kind: string, datum: Datum)                // emit(datum.type, datum)
    | CoordinatesReport(report: Report)                // emit('coordinates', ...)
    | AltitudeReport(alt: Option<int>, timestamp: Num)  // emit('altitude', ...); None is NaN

  /** What a packet causes: events emitted synchronously, and events
      deferred to the end of the current turn. */
  datatype Reaction = Reaction(now: seq<Event>, later: seq<Event>)

  /** `_emitAltitude`: only a sentence with an altitude is reported; the
      altitude is `parseInt` of its text, with no radix given. */
  function Altitude(d: Datum): (later: seq<Event>)
    ensures |later| <= 1
    ensures later != [] <==> d.alt.Some?
    ensures later != [] ==>
      later[0].AltitudeReport? && later[0].alt == ParseInt(d.alt.value)
      && later[0].timestamp == FloatOf(d.timestamp)
  {
    if d.alt.Some? then [AltitudeReport(ParseInt(d.alt.value), FloatOf(d.timestamp))] else []
  }

  /** An altitude written as the decimal text of an integer is reported as
      that integer. */
  lemma AltitudeOfIntegerText(d: Datum, n: int)
    requires d.alt == Some(IntegerText(n))
    ensures Altitude(d) == [AltitudeReport(Some(n), FloatOf(d.timestamp))]
  {
    ParseIntIntegerText(n);
  }

  /** The 'coordinates' part of `_emitCoordinates`, deferred. */
  function CoordinatesLater(d: Datum, options: Options): (later: seq<Event>)
    ensures |later| <= 1
    ensures later != [] <==> Reportable(d)
    ensures later != [] ==> later[0].CoordinatesReport? && Some(later[0].report) == CoordinatesOf(d, options)
  {
    var r := CoordinatesOf(d, options);
    if r.Some? then [CoordinatesReport(r.value)] else []
  }

  predicate Dollar(packet: string) {
    |packet| > 0 && packet[0] == '$'
  }

  /** The packet handler; `parse` stands for `nmea.parse`, None for a
      result that reads as false. */
  function OnPacket(packet: string, parse: string -> Option<Datum>, options: Options): (r: Reaction)
    // only '$' packets that parse produce anything, and then the typed event first
    ensures r.now != [] <==> Dollar(packet) && parse(packet).Some?
    ensures r.now != [] ==> r.now == [Typed(parse(packet).value.kind, parse(packet).value)]
    ensures r.later != [] ==> r.now != []
    // deferred: coordinates (when reportable) before altitude (when present)
    ensures r.now != [] ==> var d := parse(packet).value;
      |r.later| == (if Reportable(d) then 1 else 0) + (if d.alt.Some? then 1 else 0)
      && (Reportable(d) ==> r.later[0].CoordinatesReport?)
      && (d.alt.Some? ==> r.later[|r.later| - 1].AltitudeReport?)
  {
    if !Dollar(packet) then Reaction([], [])
    else
      match parse(packet)
      case None => Reaction([], [])
      case Some(d) => Reaction([Typed(d.kind, d)], CoordinatesLater(d, options) + Altitude(d))
  }

  /** Several packets handed over in the same turn: every synchronous event
      first, in packet order, then every deferred one, in packet order. */
  function Turn(packets: seq<string>, parse: string -> Option<Datum>, options: Options): (r: Reaction)
    // at most one sentence-type event per packet, and at most two deferred
    // reports per sentence-type event
    ensures |r.now| <= |packets|
    ensures |r.later| <= 2 * |r.now|
    decreases |packets|
  {
    if |packets| == 0 then Reaction([], [])
    else
      var first := OnPacket(packets[0], parse, options);
      var rest := Turn(packets[1..], parse, options);
      Reaction(first.now + rest.now, first.later + rest.later)
  }

  /** The order a listener observes. */
  function Observed(r: Reaction): seq<Event> {
    r.now + r.later
  }

  lemma {:induction false} TurnKinds(packets: seq<string>, parse: string -> Option<Datum>, options: Options)
    ensures forall e :: e in Turn(packets, parse, options).now ==> e.Typed?
    ensures forall e :: e in Turn(packets, parse, options).later ==> !e.Typed?
    decreases |packets|
  {
    if |packets| > 0 {
      TurnKinds(packets[1..], parse, options);
      var first := OnPacket(packets[0], parse, options);
      assert forall e :: e in first.later ==> !e.Typed?;
    }
  }

  /** Within one turn, every sentence-type event reaches listeners before
      any 'coordinates' or 'altitude' report, even one from an earlier packet. */
  lemma TypedBeforeReports(packets: seq<string>, parse: string -> Option<Datum>, options: Options)
    ensures var o := Observed(Turn(packets, parse, options));
      forall i, j :: 0 <= i < |o| && 0 <= j < |o| && o[i].Typed? && !o[j].Typed? ==> i < j
  {
    TurnKinds(packets, parse, options);
  }

  /** A packet on its own turn is observed as: its type event, then its
      coordinates, then its altitude. */
  lemma SinglePacketOrder(packet: string, parse: string -> Option<Datum>, options: Options)
    requires Dollar(packet) && parse(packet).Some?
    ensures var d := parse(packet).value;
      Observed(Turn([packet], parse, options))
        == [Typed(d.kind, d)] + CoordinatesLater(d, options) + Altitude(d)
  {
    var r := Turn([packet], parse, options);
    assert [packet][1..] == [];
    assert Turn([], parse, options) == Reaction([], []);
    var first := OnPacket(packet, parse, options);
    assert r == Reaction(first.now + [], first.later + []);
  }
  /** One packet in front of the others, in terms of the packet's own reaction. */
  lemma TurnCons(p: string, rest: seq<string>, parse: string -> Option<Datum>, options: Options)
    ensures var first := OnPacket(p, parse, options); var r := Turn(rest, parse, options);
      Turn([p] + rest, parse, options) == Reaction(first.now + r.now, first.later + r.later)
  {
    assert ([p] + rest)[0] == p;
    assert ([p] + rest)[1..] == rest;
  }

  lemma FrontSplit<T>(a: seq<T>, b: seq<T>)
    requires |a| > 0
    ensures a == [a[0]] + a[1..] && a + b == [a[0]] + (a[1..] + b)
  {
  }

  lemma ConcatAssoc<T>(x: seq<T>, y: seq<T>, z: seq<T>)
    ensures x + (y + z) == (x + y) + z
  {
  }

  lemma EmptyRight<T>(x: seq<T>)
    ensures x + [] == x
  {
  }

  /** Handing packets over in two groups within one turn: the synchronous
      events of both groups come first, then the deferred reports of the
      first group, then those of the second (setImmediate runs its
      callbacks in the order they were queued). */
  lemma {:induction false} TurnSplit(a: seq<string>, b: seq<string>, parse: string -> Option<Datum>, options: Options)
    ensures Turn(a + b, parse, options) == Reaction(
      Turn(a, parse, options).now + Turn(b, parse, options).now,
      Turn(a, parse, options).later + Turn(b, parse, options).later)
    decreases |a|
  {
    if |a| == 0 {
      assert a + b == b;
    } else {
      var first := OnPacket(a[0], parse, options);
      var ra := Turn(a[1..], parse, options);
      var rb := Turn(b, parse, options);
      var rab := Turn(a[1..] + b, parse, options);
      TurnSplit(a[1..], b, parse, options);
      assert rab == Reaction(ra.now + rb.now, ra.later + rb.later);
      FrontSplit(a, b);
      TurnCons(a[0], a[1..], parse, options);
      assert Turn(a, parse, options) == Reaction(first.now + ra.now, first.later + ra.later);
      TurnCons(a[0], a[1..] + b, parse, options);
      assert Turn(a + b, parse, options) == Reaction(first.now + rab.now, first.later + rab.later);
      ConcatAssoc(first.now, ra.now, rb.now);
      ConcatAssoc(first.later, ra.later, rb.later);
    }
  }

  /** Two packets in one turn are observed as: both type events, then the
      first packet's reports, then the second's. */
  lemma TwoPacketOrder(p: string, q: string, parse: string -> Option<Datum>, options: Options)
    ensures var x := OnPacket(p, parse, options); var y := OnPacket(q, parse, options);
      Observed(Turn([p, q], parse, options)) == (x.now + y.now) + (x.later + y.later)
  {
    var x := OnPacket(p, parse, options);
    var y := OnPacket(q, parse, options);
    var none: seq<string> := [];
    assert Turn(none, parse, options) == Reaction([], []);
    TurnCons(q, none, parse, options);
    EmptyRight(y.now);
    EmptyRight(y.later);
    EmptyRight([q]);
    assert Turn([q], parse, options) == y;
    TurnCons(p, [q], parse, options);
    assert [p] + [q] == [p, q];
  }
}

=== FILE: polltime.dfy ===
/** The poll interval of the Tessel 1 driver (index.js and
    lib/tessel_1/driver.js): `setPollTime` parses its argument with
    `parseInt(time, 10)`, falls back to 2000 on NaN and clamps to
    [2000, 60000]; `getPollTime` returns the stored value. */
module PollTime {
  import opened Wrappers
  import opened JsText

  const DefaultPollTime: int := 2000
  const MinPollTime: int := 2000
  const MaxPollTime: int := 60000

  predicate InRange(t: int) {
    MinPollTime <= t <= MaxPollTime
  }

  /** The checks `setPollTime` applies to the parsed value. */
  function Clamp(parsed: Option<int>): (t: int)
    ensures InRange(t)
    ensures parsed.None? ==> t == DefaultPollTime
    ensures parsed.Some? && InRange(parsed.value) ==> t == parsed.value
    ensures parsed.Some? && parsed.value < MinPollTime ==> t == MinPollTime
    ensures parsed.Some? && parsed.value > MaxPollTime ==> t == MaxPollTime
  {
    var time := parsed.GetOr(DefaultPollTime);
    if time < MinPollTime then MinPollTime
    else if time > MaxPollTime then MaxPollTime
    else time
  }

  /** The value `getPollTime` returns after `setPollTime(arg)`, where `text`
      is `String(arg)`; the previous value plays no part. */
  function SetPollTime(text: string): (t: int)
    ensures InRange(t)
  {
    Clamp(ParseInt10(text))
  }

  /** A Number argument: an in-range integer is stored unchanged, smaller
      ones become 2000 and larger ones 60000. */
  lemma SetNumber(n: int)
    requires -PlainLimit < n < PlainLimit
    ensures InRange(n) ==> SetPollTime(IntegerText(n)) == n
    ensures n < MinPollTime ==> SetPollTime(IntegerText(n)) == MinPollTime
    ensures n > MaxPollTime ==> SetPollTime(IntegerText(n)) == MaxPollTime
  {
    ParseIntegerText(n);
  }

  /** Setting the value `getPollTime` returns changes nothing: the clamp is
      idempotent. */
  lemma ResetIsNoOp(text: string)
    ensures SetPollTime(IntegerText(SetPollTime(text))) == SetPollTime(text)
  {
    ParseIntegerText(SetPollTime(text));
  }

  /** The in-range number the poll-time test sets, as `String(n)` gives it. */
  lemma NumberVectors()
    ensures SetPollTime("4473") == 4473
  {
    SetNumber(4473);
    assert IntegerText(4473) == "4473";
  }

  /** The below-range numbers the poll-time test sets. */
  lemma SmallNumberVectors()
    ensures SetPollTime("1999") == 2000
    ensures SetPollTime("55") == 2000
  {
    SetNumber(1999);
    assert IntegerText(1999) == "1999";
    SetNumber(55);
    assert IntegerText(55) == "55";
  }

  /** The above-range numbers the poll-time test sets. */
  lemma LargeNumberVectors()
    ensures SetPollTime("60001") == 60000
    ensures SetPollTime("8899983") == 60000
  {
    SetNumber(60001);
    assert IntegerText(60001) == "60001";
    SetNumber(8899983);
    assert IntegerText(8899983) == "8899983";
  }

  /** The non-numeric arguments of the poll-time test: a word, an object and
      a function reach `parseInt` through `String(...)` and all read as NaN,
      so the poll time falls back to 2000. */
  lemma NotANumberVectors()
    ensures SetPollTime("testing") == 2000
    ensures SetPollTime("[object Object]") == 2000
    ensures SetPollTime("function () { return 4000;}") == 2000
  {
    NoLeadingDigitIsNaN("testing");
    NoLeadingDigitIsNaN("[object Object]");
    NoLeadingDigitIsNaN("function () { return 4000;}");
  }
}

=== FILE: powertoggle.dfy ===
/** The power pin of the A2235-H (lib/common.js, and its variant in index.js).
    The module toggles on a pulse, so the driver pulses only when its
    tracked state is the opposite of the requested one. `_power` reads the
    tracked state twice, when called and when the pin goes low again, and
    never writes it; both readings are inputs here. */
module PowerToggle {
  import opened Wrappers
  import opened Effects

  datatype PowerState = Off | On

  /** Milliseconds the pin is held high. */
  const HoldHigh: nat := 250
  /** Milliseconds between the pin going low and the continuation. */
  const SettleTime: nat := 500

  /** `switchState`: the tracked state a request moves away from. Only the
      string 'on' asks for on; every other value asks for off. */
  function SwitchState(requested: string): (s: PowerState)
    ensures s == Off <==> requested == "on"
  {
    if requested == "on" then Off else On
  }

  /** `_power(state, callback)`: the actions of one call, given the tracked
      state when it is called (`atCall`) and when the pin goes low again
      (`atLow`). `Resume` marks the continuation running. */
  function Power(requested: string, atCall: PowerState, atLow: PowerState): (t: seq<Action>)
    // a pulse happens exactly when the tracked state is the one to leave
    ensures Occurrences(t, PinHigh) == (if atCall == SwitchState(requested) then 1 else 0)
    ensures Occurrences(t, PinLow) == Occurrences(t, PinHigh)
    // a pulse is high, 250 ms, low, in that order
    ensures PinHigh in t ==> |t| >= 3 && t[..3] == [PinHigh, Wait(HoldHigh), PinLow]
    // already in the requested state: the continuation runs at once
    ensures atCall != SwitchState(requested) ==> t == [Resume]
    // after a pulse it runs only if nobody changed the tracked state meanwhile
    ensures atCall == SwitchState(requested) ==> (Resume in t <==> atLow == atCall)
    ensures Resume in t ==> t[|t| - 1] == Resume && Occurrences(t, Resume) == 1
    ensures Resume in t && PinHigh in t ==> t[|t| - 2] == Wait(SettleTime)
  {
    var from := SwitchState(requested);
    if atCall == from then
      var pulse := [PinHigh, Wait(HoldHigh), PinLow];
      var settle := if atLow == from then [Wait(SettleTime), Resume] else [];
      OccurrencesConcat(pulse, settle, PinHigh);
      OccurrencesConcat(pulse, settle, PinLow);
      OccurrencesConcat(pulse, settle, Resume);
      pulse + settle
    else
      [Resume]
  }

  /** A request for anything but 'on' behaves exactly as a request for 'off'. */
  lemma AnyOtherRequestIsOff(requested: string, atCall: PowerState, atLow: PowerState)
    requires requested != "on"
    ensures Power(requested, atCall, atLow) == Power("off", atCall, atLow)
  {
  }

  /** A `_power` trace with its continuation marker replaced by the
      continuation's own actions `k`; pin actions are kept. */
  function Continue(t: seq<Action>, k: seq<Action>): (r: seq<Action>)
    requires PinHigh !in k && PinLow !in k
    ensures Occurrences(r, PinHigh) == Occurrences(t, PinHigh)
    ensures Resume !in t ==> r == t
    ensures |t| > 0 && t[|t| - 1] == Resume ==> r == t[..|t| - 1] + k
  {
    if |t| > 0 && t[|t| - 1] == Resume then
      var r := t[..|t| - 1] + k;
      assert t == t[..|t| - 1] + [Resume];
      OccurrencesConcat(t[..|t| - 1], [Resume], PinHigh);
      OccurrencesConcat(t[..|t| - 1], k, PinHigh);
      r
    else t
  }

  /** `_power(requested, ...)` followed by continuation `k`: either the
      continuation's actions end the trace, or the pulse was abandoned
      because the tracked state changed while the pin was high. */
  function PowerThen(requested: string, atCall: PowerState, atLow: PowerState, k: seq<Action>): (t: seq<Action>)
    requires PinHigh !in k && PinLow !in k
    ensures Occurrences(t, PinHigh) == (if atCall == SwitchState(requested) then 1 else 0)
    ensures atCall != SwitchState(requested) ==> t == k
    ensures atCall == SwitchState(requested) && atLow == atCall ==>
      t == [PinHigh, Wait(HoldHigh), PinLow, Wait(SettleTime)] + k
    ensures atCall == SwitchState(requested) && atLow != atCall ==>
      t == [PinHigh, Wait(HoldHigh), PinLow]
    // whenever the continuation runs, its actions close the trace
    ensures (atCall != SwitchState(requested) || atLow == atCall) ==>
      |t| >= |k| && t[|t| - |k|..] == k
  {
    var p := Power(requested, atCall, atLow);
    if atCall != SwitchState(requested) then
      assert p == [Resume];
      Continue(p, k)
    else if atLow == atCall then
      assert p == [PinHigh, Wait(HoldHigh), PinLow, Wait(SettleTime), Resume];
      assert p[..|p| - 1] == [PinHigh, Wait(HoldHigh), PinLow, Wait(SettleTime)];
      var t := Continue(p, k);
      assert t[|t| - |k|..] == k;
      t
    else
      assert p == [PinHigh, Wait(HoldHigh), PinLow];
      Continue(p, k)
  }

  /** `powerOn(callback)`: `_power('on', ...)` whose continuation emits
      'power-on' and then runs `k`, the caller's callback. */
  function PowerOn(atCall: PowerState, atLow: PowerState, k: seq<Action>): (t: seq<Action>)
    requires PinHigh !in k && PinLow !in k
    ensures Occurrences(t, PinHigh) == (if atCall == Off then 1 else 0)
    // tracked as on already: no pulse, 'power-on' and the callback at once
    ensures atCall == On ==> t == [Emit(PowerOnSignal)] + k
    // tracked as off: a pulse, then 'power-on' and the callback 500 ms after
    // the pin goes low, unless the tracked state changed meanwhile
    ensures atCall == Off && atLow == Off ==>
      t == [PinHigh, Wait(HoldHigh), PinLow, Wait(SettleTime), Emit(PowerOnSignal)] + k
    ensures atCall == Off && atLow == On ==> t == [PinHigh, Wait(HoldHigh), PinLow]
  {
    var c := [Emit(PowerOnSignal)] + k;
    assert SwitchState("on") == Off;
    var t := PowerThen("on", atCall, atLow, c);
    t
  }

  /** `powerOff(callback)` of lib/common.js: the caller's callback runs
      first; 'powerOff' is emitted afterwards, deferred with setImmediate. */
  function PowerOff(atCall: PowerState, atLow: PowerState, userCallback: bool): (t: seq<Action>)
    ensures Occurrences(t, PinHigh) == (if atCall == On then 1 else 0)
    ensures (atCall == Off || atLow == On) ==>
      |t| > |UserCallback(userCallback)| && t[|t| - |UserCallback(userCallback)| - 1..] == UserCallback(userCallback) + [Emit(PowerOffSignal)]
    ensures atCall == On && atLow == Off ==> Emit(PowerOffSignal) !in t && |t| == 3
    // tracked as off already: no pulse, the callback and 'powerOff' at once
    ensures atCall == Off ==> t == UserCallback(userCallback) + [Emit(PowerOffSignal)]
    // tracked as on: a pulse, then the callback and 'powerOff' 500 ms after
    // the pin goes low, unless the tracked state changed meanwhile
    ensures atCall == On && atLow == On ==>
      t == [PinHigh, Wait(HoldHigh), PinLow, Wait(SettleTime)] + UserCallback(userCallback) + [Emit(PowerOffSignal)]
    ensures atCall == On && atLow == Off ==> t == [PinHigh, Wait(HoldHigh), PinLow]
  {
    var c := UserCallback(userCallback) + [Emit(PowerOffSignal)];
    assert SwitchState("off") == On;
    var t := PowerThen("off", atCall, atLow, c);
    t
  }

  /** `powerOff(callback)` of index.js: 'power-off' (with a dash) is
      emitted synchronously, before the caller's callback. */
  function PowerOffIndex(atCall: PowerState, atLow: PowerState, userCallback: bool): (t: seq<Action>)
    ensures Occurrences(t, PinHigh) == (if atCall == On then 1 else 0)
    ensures (atCall == Off || atLow == On) ==>
      |t| > |UserCallback(userCallback)| && t[|t| - |UserCallback(userCallback)| - 1..] == [Emit(PowerOffDashSignal)] + UserCallback(userCallback)
    ensures atCall == On && atLow == Off ==> Emit(PowerOffDashSignal) !in t && |t| == 3
    ensures atCall == Off ==> t == [Emit(PowerOffDashSignal)] + UserCallback(userCallback)
    ensures atCall == On && atLow == On ==>
      t == [PinHigh, Wait(HoldHigh), PinLow, Wait(SettleTime), Emit(PowerOffDashSignal)] + UserCallback(userCallback)
    ensures atCall == On && atLow == Off ==> t == [PinHigh, Wait(HoldHigh), PinLow]
  {
    var c := [Emit(PowerOffDashSignal)] + UserCallback(userCallback);
    assert SwitchState("off") == On;
    var t := PowerThen("off", atCall, atLow, c);
    t
  }
}

=== FILE: probebringup.dfy ===
/** Bring-up of the Tessel 2 driver (`_initialPowerSequence` and
    `_switchToNMEA9800` in lib/tessel_2/driver.js, with the constructor's
    callback and `powerOn`/`_power` from lib/common.js).

    The UART opens at 115200 baud and the driver listens for any byte. The
    first byte cancels the pending timer, marks the module on, writes the
    SiRF "switch to NMEA" frame and reopens the UART at 9600. If nothing
    arrives within the first window, `powerOn` pulses the power pin once; if
    the module is still off when the pulse has settled, one final window is
    armed, whose expiry reports failure.

    Timers are inputs: `Expire(t)` is the timer `t` firing; a timer that is
    not pending cannot fire. The listener registered for the first byte is a
    one-shot wrapper that the driver's `removeListener` calls never remove,
    so a byte that arrives after the failure report still connects. */
module ProbeBringUp {
  import opened Wrappers
  import opened Effects
  import opened PowerToggle
  import SirfFrame

  /** The driver's timers: the first listening window (`alreadyOn`), the end
      of the power pulse (`backLow`), the settle delay before `powerOn`'s
      continuation, and the final listening window. */
  datatype Timer = FirstWindow | BackLow | Settle | FinalWindow

  datatype Input = Data | Expire(timer: Timer)

  const ProbeBaud := 115200
  const NmeaBaud := 9600

  /** `power` is `powerState`; `listening` says whether the one-shot data
      listener is still registered; `handle` is the timer that
      `noReceiveTimeout` names; `pending` holds the armed timers. */
  datatype Probe = Probe(
    power: PowerState, listening: bool, handle: Timer,
    pending: set<Timer>, baud: nat, userCallback: bool)

  /** The constructor starts the probe: the UART opens at 115200 baud, the
      listener is registered and the first window is armed. */
  function Start(userCallback: bool): (r: (Probe, seq<Action>))
    ensures r.0.power == Off && r.0.listening && r.0.pending == {FirstWindow}
    ensures r.1 == [OpenUart(r.0.baud)] && r.0.baud == ProbeBaud
  {
    (Probe(Off, true, FirstWindow, {FirstWindow}, ProbeBaud, userCallback), [OpenUart(ProbeBaud)])
  }

  /** The constructor's callback (lib/tessel_2/driver.js:42-54): on success
      start parsing, whose callback emits 'ready'; on failure emit 'error';
      then, either way, call the user's callback with no argument. */
  function Constructed(err: Option<Failure>, userCallback: bool): (t: seq<Action>)
    ensures err.None? ==> |t| >= 2 && t[0] == StartParsing && t[1] == Emit(ReadySignal)
    ensures err.Some? ==> |t| >= 1 && t[0] == EmitError(err.value)
    ensures Emit(ReadySignal) in t <==> err.None?
    ensures StartParsing in t <==> err.None?
    ensures (forall f :: EmitError(f) in t <==> err == Some(f))
    ensures Callback(None) in t <==> userCallback
    ensures PinHigh !in t && PinLow !in t
    ensures Occurrences(t, Emit(ReadySignal)) == (if err.None? then 1 else 0)
    ensures Occurrences(t, EmitError(NoConnection)) == (if err == Some(NoConnection) then 1 else 0)
    ensures Occurrences(t, Callback(None)) == (if userCallback then 1 else 0)
  {
    var report := if err.None? then [StartParsing, Emit(ReadySignal)] else [EmitError(err.value)];
    var t := report + UserCallback(userCallback);
    OccurrencesConcat(report, UserCallback(userCallback), Emit(ReadySignal));
    OccurrencesConcat(report, UserCallback(userCallback), EmitError(NoConnection));
    OccurrencesConcat(report, UserCallback(userCallback), Callback(None));
    t
  }

  /** `powerOn`'s continuation: emit 'power-on'; if the module is still
      marked off, arm the final window and make it `noReceiveTimeout`. */
  function AfterPowerOn(m: Probe): (r: (Probe, seq<Action>))
    ensures r.1 == [Emit(PowerOnSignal)]
    ensures r.0.power == m.power && r.0.listening == m.listening
    ensures r.0.pending == m.pending + (if m.power == Off then {FinalWindow} else {})
    // the final window becomes the timer a byte cancels
    ensures m.power == Off ==> r.0.handle == FinalWindow
    ensures m.power == On ==> r.0 == m
  {
    if m.power == Off then (m.(pending := m.pending + {FinalWindow}, handle := FinalWindow), [Emit(PowerOnSignal)])
    else (m, [Emit(PowerOnSignal)])
  }

  function Step(m: Probe, input: Input): (r: (Probe, seq<Action>))
    ensures r.0.userCallback == m.userCallback
  {
    match input
    case Data =>
      if !m.listening then (m, [])
      else
        (m.(listening := false, pending := m.pending - {m.handle}, power := On, baud := NmeaBaud),
         [WriteUart(SirfFrame.SwitchFrame), OpenUart(NmeaBaud)] + Constructed(None, m.userCallback))
    case Expire(t) =>
      if t !in m.pending then (m, [])
      else
        var m0 := m.(pending := m.pending - {t});
        match t
        case FirstWindow =>
          if m.power == Off then (m0.(pending := m0.pending + {BackLow}), [PinHigh])
          else AfterPowerOn(m0)
        case BackLow =>
          (if m.power == Off then m0.(pending := m0.pending + {Settle}) else m0, [PinLow])
        case Settle =>
          AfterPowerOn(m0)
        case FinalWindow =>
          (m0, Constructed(Some(NoConnection), m.userCallback))
  }

  /** What one input does. */
  lemma StepFacts(m: Probe, input: Input)
    // only a delivered byte changes the power state, and it always turns it on
    ensures var r := Step(m, input);
      (r.0.power != m.power ==> input == Data && m.listening)
      && (input == Data && m.listening ==> r.0.power == On)
    // a byte the listener takes writes the frame, then reopens the UART, then reports success
    ensures var r := Step(m, input);
      input == Data && m.listening ==>
        |r.1| >= 4 && r.1[0] == WriteUart(SirfFrame.SwitchFrame) && r.1[1] == OpenUart(r.0.baud)
        && r.0.baud == NmeaBaud && r.1[2..] == Constructed(None, m.userCallback)
        && !r.0.listening && r.0.pending == m.pending - {m.handle}
    // once the listener is gone, bytes are not the bring-up's business
    ensures input == Data && !m.listening ==> Step(m, input) == (m, [])
  {
  }

  /** What a timer's expiry does. */
  lemma TimerFacts(m: Probe, input: Input)
    // timers fire only while pending, and only the first window can pulse the pin
    ensures input.Expire? && input.timer !in m.pending ==> Step(m, input) == (m, [])
    ensures PinHigh in Step(m, input).1 <==>
      input == Expire(FirstWindow) && FirstWindow in m.pending && m.power == Off
    ensures EmitError(NoConnection) in Step(m, input).1 <==>
      input == Expire(FinalWindow) && FinalWindow in m.pending
    ensures Step(m, input).0.listening ==> m.listening
  {
  }

  function Run(m: Probe, inputs: seq<Input>): (Probe, seq<Action>) {
    Drive(Step, m, inputs)
  }

  lemma RunCons(m: Probe, inputs: seq<Input>)
    requires |inputs| > 0
    ensures Run(m, inputs).1 == Step(m, inputs[0]).1 + Run(Step(m, inputs[0]).0, inputs[1..]).1
    ensures Run(m, inputs).0 == Run(Step(m, inputs[0]).0, inputs[1..]).0
  {
  }

  /** With the listener gone and no timer pending, nothing more happens. */
  lemma {:induction false} Quiescent(m: Probe, inputs: seq<Input>)
    requires !m.listening && m.pending == {}
    ensures Run(m, inputs) == (m, [])
    decreases |inputs|
  {
    if |inputs| > 0 {
      assert Step(m, inputs[0]) == (m, []);
      RunCons(m, inputs);
      Quiescent(m, inputs[1..]);
      assert Run(m, inputs).1 == [] + [];
    }
  }

  /** A byte inside the first window connects: no power pulse, ever. The
      frame goes out before the UART is reopened at 9600 baud, and the
      constructor reports success. */
  lemma FirstByteConnects(userCallback: bool, later: seq<Input>)
    ensures var r := Run(Start(userCallback).0, [Data] + later);
      r.1 == [WriteUart(SirfFrame.SwitchFrame), OpenUart(NmeaBaud)] + Constructed(None, userCallback)
      && r.0.power == On && r.0.baud == NmeaBaud && PinHigh !in r.1
  {
    var m := Start(userCallback).0;
    var inputs := [Data] + later;
    var first := Step(m, Data);
    assert first.0.pending == {} && !first.0.listening;
    RunCons(m, inputs);
    assert inputs[1..] == later;
    Quiescent(first.0, later);
    assert Run(m, inputs).1 == first.1 + [];
  }

  /** The two timers of `_power`'s pulse. When the pin goes low, the settle
      delay is armed only if the module is still marked off; when the delay
      ends, 'power-on' is emitted, and the final window is armed, as the
      timer a byte cancels, only if the module is still marked off. */
  lemma PulseTimerFacts(m: Probe, t: Timer)
    requires t in m.pending
    ensures t == BackLow ==>
      && Step(m, Expire(t)).1 == [PinLow]
      && Step(m, Expire(t)).0.pending
         == (m.pending - {BackLow}) + (if m.power == Off then {Settle} else {})
    ensures t == Settle ==>
      && Step(m, Expire(t)).1 == [Emit(PowerOnSignal)]
      && Step(m, Expire(t)).0.pending
         == (m.pending - {Settle}) + (if m.power == Off then {FinalWindow} else {})
      && (m.power == Off ==> Step(m, Expire(t)).0.handle == FinalWindow)
  {
  }

  /** After a byte has been taken, the timers of an unfinished pulse can
      still lower the pin and emit 'power-on', and nothing else. */
  predicate Connected(m: Probe) {
    !m.listening && m.power == On && m.pending <= {BackLow, Settle}
  }

  lemma {:induction false} ConnectedQuiet(m: Probe, later: seq<Input>)
    requires Connected(m)
    ensures forall a :: a in Run(m, later).1 ==> a == PinLow || a == Emit(PowerOnSignal)
    // without a settle delay pending, not even 'power-on' follows
    ensures Settle !in m.pending ==> forall a :: a in Run(m, later).1 ==> a == PinLow
    decreases |later|
  {
    if |later| > 0 {
      var first := Step(m, later[0]);
      assert Connected(first.0);
      assert forall a :: a in first.1 ==> a == PinLow || a == Emit(PowerOnSignal);
      assert Settle !in m.pending ==> Settle !in first.0.pending && forall a :: a in first.1 ==> a == PinLow;
      RunCons(m, later);
      ConnectedQuiet(first.0, later[1..]);
    }
  }

  /** What a byte taken by the listener does: the frame, the reopen at
      9600 baud, then the constructor's success report. */
  function Connection(userCallback: bool): (t: seq<Action>)
    ensures Emit(ReadySignal) in t && EmitError(NoConnection) !in t
    ensures PinHigh !in t && PinLow !in t && Emit(PowerOnSignal) !in t
  {
    [WriteUart(SirfFrame.SwitchFrame), OpenUart(NmeaBaud)] + Constructed(None, userCallback)
  }

  /** The probe still listening with the module marked off. */
  function Waiting(userCallback: bool, handle: Timer, pending: set<Timer>): Probe {
    Probe(Off, true, handle, pending, ProbeBaud, userCallback)
  }

  /** The timers of a silent bring-up, one expiry at a time. */
  lemma SilentFirstWindow(userCallback: bool)
    ensures Step(Start(userCallback).0, Expire(FirstWindow))
      == (Waiting(userCallback, FirstWindow, {BackLow}), [PinHigh])
  {
    assert {FirstWindow} - {FirstWindow} + {BackLow} == {BackLow};
  }

  lemma SilentBackLow(userCallback: bool)
    ensures Step(Waiting(userCallback, FirstWindow, {BackLow}), Expire(BackLow))
      == (Waiting(userCallback, FirstWindow, {Settle}), [PinLow])
  {
    assert {BackLow} - {BackLow} + {Settle} == {Settle};
  }

  lemma SilentSettle(userCallback: bool)
    ensures Step(Waiting(userCallback, FirstWindow, {Settle}), Expire(Settle))
      == (Waiting(userCallback, FinalWindow, {FinalWindow}), [Emit(PowerOnSignal)])
  {
    assert {Settle} - {Settle} + {FinalWindow} == {FinalWindow};
  }

  /** A timer expiry, followed by anything. */
  lemma ExpireThen(m: Probe, t: Timer, later: seq<Input>)
    ensures Run(m, [Expire(t)] + later).1 == Step(m, Expire(t)).1 + Run(Step(m, Expire(t)).0, later).1
  {
    RunCons(m, [Expire(t)] + later);
    assert ([Expire(t)] + later)[1..] == later;
  }

  /** A byte reaching a waiting probe, followed by anything. */
  lemma ByteThen(m: Probe, later: seq<Input>)
    requires m.listening
    ensures Run(m, [Data] + later).1 == Connection(m.userCallback) + Run(Step(m, Data).0, later).1
    ensures Step(m, Data).0 == m.(listening := false, pending := m.pending - {m.handle}, power := On, baud := NmeaBaud)
  {
    RunCons(m, [Data] + later);
    assert ([Data] + later)[1..] == later;
  }

  /** The probe once a byte has been taken with the module marked off. */
  function Taken(userCallback: bool, pending: set<Timer>): Probe {
    Probe(On, false, FirstWindow, pending, NmeaBaud, userCallback)
  }

  /** The trace of a byte while the pin is high. */
  lemma PulseTrace(userCallback: bool, later: seq<Input>)
    ensures Run(Start(userCallback).0, [Expire(FirstWindow), Data] + later).1
      == [PinHigh] + (Connection(userCallback) + Run(Taken(userCallback, {BackLow}), later).1)
  {
    SilentFirstWindow(userCallback);
    var m1 := Waiting(userCallback, FirstWindow, {BackLow});
    assert [Expire(FirstWindow), Data] + later == [Expire(FirstWindow)] + ([Data] + later);
    ExpireThen(Start(userCallback).0, FirstWindow, [Data] + later);
    ByteThen(m1, later);
    assert {BackLow} - {FirstWindow} == {BackLow};
  }

  /** The trace of a byte during the settle delay. */
  lemma SettleTrace(userCallback: bool, later: seq<Input>)
    ensures Run(Start(userCallback).0, [Expire(FirstWindow), Expire(BackLow), Data] + later).1
      == [PinHigh] + ([PinLow] + (Connection(userCallback) + Run(Taken(userCallback, {Settle}), later).1))
  {
    SilentFirstWindow(userCallback);
    SilentBackLow(userCallback);
    var m1 := Waiting(userCallback, FirstWindow, {BackLow});
    var m2 := Waiting(userCallback, FirstWindow, {Settle});
    assert [Expire(FirstWindow), Expire(BackLow), Data] + later
      == [Expire(FirstWindow)] + ([Expire(BackLow)] + ([Data] + later));
    ExpireThen(Start(userCallback).0, FirstWindow, [Expire(BackLow)] + ([Data] + later));
    ExpireThen(m1, BackLow, [Data] + later);
    ByteThen(m2, later);
    assert {Settle} - {FirstWindow} == {Settle};
  }

  /** The trace of a byte in the final window. */
  lemma FinalWindowTrace(userCallback: bool, later: seq<Input>)
    ensures Run(Start(userCallback).0, [Expire(FirstWindow), Expire(BackLow), Expire(Settle), Data] + later).1
      == [PinHigh] + ([PinLow] + ([Emit(PowerOnSignal)] + (Connection(userCallback) + Run(Taken(userCallback, {}).(handle := FinalWindow), later).1)))
  {
    SilentFirstWindow(userCallback);
    SilentBackLow(userCallback);
    SilentSettle(userCallback);
    var m1 := Waiting(userCallback, FirstWindow, {BackLow});
    var m2 := Waiting(userCallback, FirstWindow, {Settle});
    var m3 := Waiting(userCallback, FinalWindow, {FinalWindow});
    assert [Expire(FirstWindow), Expire(BackLow), Expire(Settle), Data] + later
      == [Expire(FirstWindow)] + ([Expire(BackLow)] + ([Expire(Settle)] + ([Data] + later)));
    ExpireThen(Start(userCallback).0, FirstWindow, [Expire(BackLow)] + ([Expire(Settle)] + ([Data] + later)));
    ExpireThen(m1, BackLow, [Expire(Settle)] + ([Data] + later));
    ExpireThen(m2, Settle, [Data] + later);
    ByteThen(m3, later);
    assert {FinalWindow} - {FinalWindow} == {};
  }

  /** A byte while the pin is high (after the first window, before the pulse
      ends) connects, and because the module is then marked on, the pulse
      ends without 'power-on' and no final window is armed: no failure. */
  lemma ByteDuringPulseConnects(userCallback: bool, later: seq<Input>)
    ensures var r := Run(Start(userCallback).0, [Expire(FirstWindow), Data] + later);
      |r.1| > |Connection(userCallback)|
      && r.1[..1 + |Connection(userCallback)|] == [PinHigh] + Connection(userCallback)
      && Emit(PowerOnSignal) !in r.1 && EmitError(NoConnection) !in r.1 && Emit(ReadySignal) in r.1
  {
    PulseTrace(userCallback, later);
    var m := Taken(userCallback, {BackLow});
    assert Connected(m) && Settle !in m.pending;
    ConnectedQuiet(m, later);
    var c := Connection(userCallback);
    var tail := Run(m, later).1;
    var r := [PinHigh] + (c + tail);
    assert r[..1 + |c|] == [PinHigh] + c;
    assert forall a :: a in r ==> a == PinHigh || a in c || a == PinLow;
  }

  /** A byte during the settle delay connects; the delay's end still emits
      'power-on', but the module is marked on, so no final window and no
      failure follow. */
  lemma ByteDuringSettleConnects(userCallback: bool, later: seq<Input>)
    ensures var r := Run(Start(userCallback).0, [Expire(FirstWindow), Expire(BackLow), Data] + later);
      |r.1| >= 2 + |Connection(userCallback)|
      && r.1[..2 + |Connection(userCallback)|] == [PinHigh, PinLow] + Connection(userCallback)
      && EmitError(NoConnection) !in r.1 && Emit(ReadySignal) in r.1 && PinHigh !in r.1[1..]
  {
    SettleTrace(userCallback, later);
    var m := Taken(userCallback, {Settle});
    assert Connected(m);
    ConnectedQuiet(m, later);
    var c := Connection(userCallback);
    var tail := Run(m, later).1;
    var r := [PinHigh] + ([PinLow] + (c + tail));
    assert r[..2 + |c|] == [PinHigh, PinLow] + c;
    assert r[1..] == [PinLow] + (c + tail);
    assert forall a :: a in r[1..] ==> a in c || a == PinLow || a == Emit(PowerOnSignal);
  }

  /** A byte in the final window connects and cancels the failure report:
      the final window is the timer `waitForData` clears. */
  lemma ByteInFinalWindowConnects(userCallback: bool, later: seq<Input>)
    ensures var r := Run(Start(userCallback).0,
      [Expire(FirstWindow), Expire(BackLow), Expire(Settle), Data] + later);
      r.1 == [PinHigh, PinLow, Emit(PowerOnSignal)] + Connection(userCallback)
      && EmitError(NoConnection) !in r.1 && Emit(ReadySignal) in r.1
  {
    FinalWindowTrace(userCallback, later);
    Quiescent(Taken(userCallback, {}).(handle := FinalWindow), later);
    var c := Connection(userCallback);
    assert [PinHigh] + ([PinLow] + ([Emit(PowerOnSignal)] + (c + []))) == [PinHigh, PinLow, Emit(PowerOnSignal)] + c;
  }

  /** The baud the UART is reopened at is the baud the written frame asks the
      receiver to switch to. */
  lemma ReopenMatchesFrame()
    ensures SirfFrame.Unframe(SirfFrame.SwitchFrame).Some?
    ensures SirfFrame.Decode(SirfFrame.Unframe(SirfFrame.SwitchFrame).value).Some?
    ensures SirfFrame.Decode(SirfFrame.Unframe(SirfFrame.SwitchFrame).value).value.baud == NmeaBaud
  {
    SirfFrame.SwitchFrameIsWellFormed();
  }

  /** The timers firing in order with no byte at all: one pulse, one
      'power-on', then the failure report. The listener stays registered. */
  const Silence: seq<Input> := [Expire(FirstWindow), Expire(BackLow), Expire(Settle), Expire(FinalWindow)]

  lemma NoDataFails(userCallback: bool)
    ensures var r := Run(Start(userCallback).0, Silence);
      r.1 == [PinHigh, PinLow, Emit(PowerOnSignal)] + Constructed(Some(NoConnection), userCallback)
      && r.0.listening && r.0.pending == {} && r.0.power == Off
  {
    var m0 := Start(userCallback).0;
    var s1 := Step(m0, Silence[0]);
    assert s1.0.pending == {BackLow} && s1.1 == [PinHigh];
    var s2 := Step(s1.0, Silence[1]);
    assert s2.0.pending == {Settle} && s2.1 == [PinLow];
    var s3 := Step(s2.0, Silence[2]);
    assert s3.0.pending == {FinalWindow} && s3.1 == [Emit(PowerOnSignal)];
    var s4 := Step(s3.0, Silence[3]);
    assert s4.0.pending == {};
    assert Run(s4.0, []) == (s4.0, []);
    assert Silence[3..] == [Silence[3]];
    assert Silence[2..] == [Silence[2]] + Silence[3..];
    assert Silence[1..] == [Silence[1]] + Silence[2..];
    RunCons(s3.0, Silence[3..]);
    RunCons(s2.0, Silence[2..]);
    RunCons(s1.0, Silence[1..]);
    RunCons(m0, Silence);
  }

  /** A byte arriving after the failure report still reaches the one-shot
      listener: the constructor's callback runs a second time, now reporting
      success, so the user sees both 'error' and 'ready'. */
  lemma LateByteConnectsAfterFailure(userCallback: bool)
    ensures var r := Run(Start(userCallback).0, Silence + [Data]);
      EmitError(NoConnection) in r.1 && Emit(ReadySignal) in r.1
      && Occurrences(r.1, Callback(None)) == (if userCallback then 2 else 0)
  {
    var m0 := Start(userCallback).0;
    var quiet := Run(m0, Silence);
    SilenceCounts(userCallback);
    RunSplit(m0, Silence, [Data]);
    var late := Step(quiet.0, Data);
    RunCons(quiet.0, [Data]);
    assert Run(late.0, []) == (late.0, []);
    assert Run(quiet.0, [Data]).1 == late.1;
    assert Valid(quiet.0);
    DataAccounting(quiet.0);
    OccurrencesConcat(quiet.1, late.1, Callback(None));
    OccurrencesConcat(quiet.1, late.1, Emit(ReadySignal));
    OccurrencesConcat(quiet.1, late.1, EmitError(NoConnection));
  }

  lemma SilenceCounts(userCallback: bool)
    ensures var r := Run(Start(userCallback).0, Silence);
      r.0.listening && r.0.pending == {} && r.0.userCallback == userCallback
      && Occurrences(r.1, EmitError(NoConnection)) == 1
      && Occurrences(r.1, Callback(None)) == (if userCallback then 1 else 0)
  {
    NoDataFails(userCallback);
    var pulse: seq<Action> := [PinHigh, PinLow, Emit(PowerOnSignal)];
    var fail := Constructed(Some(NoConnection), userCallback);
    OccurrencesConcat(pulse, fail, Callback(None));
    OccurrencesConcat(pulse, fail, EmitError(NoConnection));
  }

  lemma RunSplit(m: Probe, a: seq<Input>, b: seq<Input>)
    ensures Run(m, a + b).1 == Run(m, a).1 + Run(Run(m, a).0, b).1
    ensures Run(m, a + b).0 == Run(Run(m, a).0, b).0
  {
    DriveSplit(Step, m, a, b);
  }

  /** `powerOn` of a module tracked as off throughout, delays left out. */
  lemma UntimedPowerOn()
    ensures Untimed(PowerOn(Off, Off, [])) == [PinHigh, PinLow, Emit(PowerOnSignal)]
  {
    var t: seq<Action> := [PinHigh, Wait(HoldHigh), PinLow, Wait(SettleTime), Emit(PowerOnSignal)];
    assert PowerOn(Off, Off, []) == t;
    assert Untimed(t[4..]) == [Emit(PowerOnSignal)] by { assert t[4..][1..] == []; }
    assert Untimed(t[3..]) == [Emit(PowerOnSignal)] by { assert t[3..][1..] == t[4..]; }
    assert Untimed(t[2..]) == [PinLow, Emit(PowerOnSignal)] by { assert t[2..][1..] == t[3..]; }
    assert Untimed(t[1..]) == [PinLow, Emit(PowerOnSignal)] by { assert t[1..][1..] == t[2..]; }
  }

  /** The first window's chain of timers, on a module tracked as off:
      pin high, pin low, 'power-on'. */
  lemma PulseSteps(m: Probe)
    requires FirstWindow in m.pending && m.power == Off
    ensures Run(m, [Expire(FirstWindow), Expire(BackLow), Expire(Settle)]).1
      == [PinHigh, PinLow, Emit(PowerOnSignal)]
  {
    var inputs := [Expire(FirstWindow), Expire(BackLow), Expire(Settle)];
    var s1 := Step(m, inputs[0]);
    assert s1.1 == [PinHigh] && s1.0.power == Off && BackLow in s1.0.pending;
    var s2 := Step(s1.0, inputs[1]);
    assert s2.1 == [PinLow] && s2.0.power == Off && Settle in s2.0.pending;
    RunCons(m, inputs);
    RunCons(s1.0, inputs[1..]);
    RunCons(s2.0, inputs[2..]);
    assert Run(Step(s2.0, inputs[2]).0, inputs[3..]).1 == [];
  }

  /** The first window's pulse, traced timer by timer, is `powerOn` of a
      module tracked as off throughout, with its delays left out. */
  lemma PulseMatchesPowerOn(m: Probe)
    requires FirstWindow in m.pending && m.power == Off
    ensures Run(m, [Expire(FirstWindow), Expire(BackLow), Expire(Settle)]).1
      == Untimed(PowerOn(Off, Off, []))
  {
    UntimedPowerOn();
    PulseSteps(m);
  }

  /** At most one timer is ever pending. */
  predicate Valid(m: Probe) {
    |m.pending| <= 1
  }

  function Indicator(b: bool): nat {
    if b then 1 else 0
  }

  /** What a state can still produce: a pulse needs the first window, a
      failure needs a pending timer, a success needs the listener, and a
      failure without a fresh pulse needs a post-pulse timer. */
  function PulsesLeft(m: Probe): nat { Indicator(FirstWindow in m.pending) }
  function FailuresLeft(m: Probe): nat { Indicator(m.pending != {}) }
  function SuccessesLeft(m: Probe): nat { Indicator(m.listening) }
  function PulsedAlready(m: Probe): nat { Indicator(BackLow in m.pending || Settle in m.pending || FinalWindow in m.pending) }

  lemma OnlyPending(m: Probe, t: Timer)
    requires Valid(m) && t in m.pending
    ensures m.pending == {t}
  {
    assert |m.pending - {t}| == |m.pending| - 1;
  }

  /** What a timer's expiry may leave behind and report. */
  predicate ExpiryAccounted(m: Probe, t: Timer) {
    var r := Step(m, Expire(t));
    r.0.pending <= {BackLow, Settle, FinalWindow} && Valid(r.0)
    && r.0.listening == m.listening
    && Occurrences(r.1, PinHigh) == Indicator(t == FirstWindow && m.power == Off)
    && Occurrences(r.1, EmitError(NoConnection)) == Indicator(t == FinalWindow)
    && Occurrences(r.1, Emit(ReadySignal)) == 0
    && (t == FinalWindow ==> r.0.pending == {})
  }

  /** A timer's expiry leaves at most its successor pending. */
  lemma ExpireAccounting(m: Probe, t: Timer)
    requires Valid(m) && t in m.pending
    ensures ExpiryAccounted(m, t)
  {
    OnlyPending(m, t);
    match t
    case FirstWindow => ExpireFirstWindow(m);
    case BackLow => ExpireBackLow(m);
    case Settle => ExpireSettle(m);
    case FinalWindow => ExpireFinalWindow(m);
  }

  lemma ExpireFirstWindow(m: Probe)
    requires m.pending == {FirstWindow}
    ensures ExpiryAccounted(m, FirstWindow)
  {
    var r := Step(m, Expire(FirstWindow));
    if m.power == Off {
      assert r.0.pending == {BackLow} && r.1 == [PinHigh];
    } else {
      assert r.0.pending == {} && r.1 == [Emit(PowerOnSignal)];
    }
  }

  lemma ExpireBackLow(m: Probe)
    requires m.pending == {BackLow}
    ensures ExpiryAccounted(m, BackLow)
  {
    var r := Step(m, Expire(BackLow));
    assert r.0.pending == (if m.power == Off then {Settle} else {}) && r.1 == [PinLow];
  }

  lemma ExpireSettle(m: Probe)
    requires m.pending == {Settle}
    ensures ExpiryAccounted(m, Settle)
  {
    var r := Step(m, Expire(Settle));
    assert r.0.pending == (if m.power == Off then {FinalWindow} else {}) && r.1 == [Emit(PowerOnSignal)];
  }

  lemma ExpireFinalWindow(m: Probe)
    requires m.pending == {FinalWindow}
    ensures ExpiryAccounted(m, FinalWindow)
  {
    var r := Step(m, Expire(FinalWindow));
    assert r.0.pending == {} && r.1 == Constructed(Some(NoConnection), m.userCallback);
  }

  /** A byte the listener takes only cancels timers. */
  lemma DataAccounting(m: Probe)
    requires Valid(m) && m.listening
    ensures var r := Step(m, Data);
      r.0.pending <= m.pending && Valid(r.0) && !r.0.listening
      && Occurrences(r.1, PinHigh) == 0
      && Occurrences(r.1, EmitError(NoConnection)) == 0
      && Occurrences(r.1, Emit(ReadySignal)) == 1
      && Occurrences(r.1, Callback(None)) == (if m.userCallback then 1 else 0)
  {
    var r := Step(m, Data);
    SubsetCard(r.0.pending, m.pending);
    var write: seq<Action> := [WriteUart(SirfFrame.SwitchFrame), OpenUart(NmeaBaud)];
    var ok := Constructed(None, m.userCallback);
    assert r.1 == write + ok;
    OccurrencesConcat(write, ok, EmitError(NoConnection));
    OccurrencesConcat(write, ok, PinHigh);
    OccurrencesConcat(write, ok, Emit(ReadySignal));
    OccurrencesConcat(write, ok, Callback(None));
  }

  /** One step spends at most what the potentials say it may. */
  predicate StepAccounted(m: Probe, input: Input) {
    var r := Step(m, input);
    Valid(r.0)
    && Occurrences(r.1, PinHigh) + PulsesLeft(r.0) <= PulsesLeft(m)
    && Occurrences(r.1, EmitError(NoConnection)) + FailuresLeft(r.0) <= FailuresLeft(m)
    && Occurrences(r.1, Emit(ReadySignal)) + SuccessesLeft(r.0) <= SuccessesLeft(m)
    && Occurrences(r.1, EmitError(NoConnection)) + PulsedAlready(r.0)
      <= Occurrences(r.1, PinHigh) + PulsedAlready(m)
  }

  lemma StepAccounting(m: Probe, input: Input)
    requires Valid(m)
    ensures StepAccounted(m, input)
  {
    if input.Expire? && input.timer in m.pending {
      ExpireStepAccounted(m, input.timer);
    } else if input == Data && m.listening {
      DataStepAccounted(m);
    } else {
      assert Step(m, input) == (m, []);
    }
  }

  lemma ExpireStepAccounted(m: Probe, t: Timer)
    requires Valid(m) && t in m.pending
    ensures StepAccounted(m, Expire(t))
  {
    OnlyPending(m, t);
    ExpireAccounting(m, t);
  }

  lemma DataStepAccounted(m: Probe)
    requires Valid(m) && m.listening
    ensures StepAccounted(m, Data)
  {
    DataAccounting(m);
  }

  lemma SubsetCard(a: set<Timer>, b: set<Timer>)
    requires a <= b
    ensures |a| <= |b|
  {
    assert b == a + (b - a);
  }

  lemma {:induction false} RunAccounting(m: Probe, inputs: seq<Input>)
    requires Valid(m)
    ensures Occurrences(Run(m, inputs).1, PinHigh) <= PulsesLeft(m)
    ensures Occurrences(Run(m, inputs).1, EmitError(NoConnection)) <= FailuresLeft(m)
    ensures Occurrences(Run(m, inputs).1, Emit(ReadySignal)) <= SuccessesLeft(m)
    ensures Occurrences(Run(m, inputs).1, EmitError(NoConnection))
      <= Occurrences(Run(m, inputs).1, PinHigh) + PulsedAlready(m)
    decreases |inputs|
  {
    if |inputs| > 0 {
      var first := Step(m, inputs[0]);
      var rest := Run(first.0, inputs[1..]);
      StepAccounting(m, inputs[0]);
      RunAccounting(first.0, inputs[1..]);
      RunCons(m, inputs);
      OccurrencesConcat(first.1, rest.1, PinHigh);
      OccurrencesConcat(first.1, rest.1, EmitError(NoConnection));
      OccurrencesConcat(first.1, rest.1, Emit(ReadySignal));
    }
  }

  /** Whatever the order of bytes and timer expiries: at most one power
      pulse, at most one failure report and at most one success report, and
      a failure is only ever reported after a pulse. */
  lemma BringUpBounds(userCallback: bool, inputs: seq<Input>)
    ensures var out := Run(Start(userCallback).0, inputs).1;
      Occurrences(out, PinHigh) <= 1
      && Occurrences(out, EmitError(NoConnection)) <= 1
      && Occurrences(out, Emit(ReadySignal)) <= 1
      && (EmitError(NoConnection) in out ==> PinHigh in out)
  {
    var m := Start(userCallback).0;
    assert Valid(m) && PulsedAlready(m) == 0;
    RunAccounting(m, inputs);
  }

  /** `powerState` only ever turns on, and only when a byte reaches the listener. */
  lemma {:induction false} PowerOnOnlyByData(m: Probe, inputs: seq<Input>)
    requires m.power == Off
    ensures Run(m, inputs).0.power == On ==> m.listening && Data in inputs
    decreases |inputs|
  {
    if |inputs| > 0 {
      var first := Step(m, inputs[0]);
      RunCons(m, inputs);
      if first.0.power == Off {
        PowerOnOnlyByData(first.0, inputs[1..]);
        if Run(m, inputs).0.power == On {
          assert Data in inputs[1..];
          assert m.listening;
        }
      }
    }
  }
}

=== FILE: retrybringup.dfy ===
/** Bring-up of the Tessel 1 driver (index.js, lib/tessel_1/driver.js):
    one check 1000 ms after construction, then up to four attempts that
    pulse power on, send the start command and check again 1000 ms later.
    A check is a timer expiry whose `swuart_receive()` came back non-empty
    (`true`) or empty (`false`); the checks are the machine's inputs. */
module RetryBringUp {
  import opened Wrappers
  import opened Effects
  import opened PowerToggle

  /** Milliseconds between a check being armed and it running. */
  const CheckDelay: nat := 1000
  /** `count > 3` ends the retries. */
  const RetryLimit: nat := 3

  datatype Phase =
    | Probing                   // the first check is armed
    | Attempting(failures: nat) // a pulse-and-check attempt is under way; `count`
    | Ready                     // isReady() has run
    | Failed                    // the error has been emitted

  datatype Machine = Machine(phase: Phase, power: PowerState, userCallback: bool)

  /** The constructor: `powerState` starts 'off'. */
  function Init(userCallback: bool): Machine {
    Machine(Probing, Off, userCallback)
  }

  /** isReady(): 'ready', the first fix poll, then the constructor's callback. */
  function ReadyActions(m: Machine): (t: seq<Action>)
    ensures Occurrences(t, Emit(ReadySignal)) == 1 && t[0] == Emit(ReadySignal)
    ensures |t| >= 2 && t[1] == StartPolling
    // the callback runs once when one was given, and last
    ensures Occurrences(t, Callback(None)) == (if m.userCallback then 1 else 0)
    ensures Callback(None) in t ==> t[|t| - 1] == Callback(None)
    ensures PinHigh !in t && EmitError(NotFound) !in t
  {
    var head := [Emit(ReadySignal), StartPolling];
    OccurrencesConcat(head, UserCallback(m.userCallback), Callback(None));
    OccurrencesConcat(head, UserCallback(m.userCallback), Emit(ReadySignal));
    head + UserCallback(m.userCallback)
  }

  /** powerSequence(): `powerOn`, whose callback sends the start command and
      arms the next check. Nothing writes `powerState` during the pulse. */
  function Attempt(power: PowerState): (t: seq<Action>)
    ensures Occurrences(t, PinHigh) == (if power == Off then 1 else 0)
    ensures Emit(ReadySignal) !in t && EmitError(NotFound) !in t
    ensures Callback(None) !in t
  {
    var k := [GpsInit, Wait(CheckDelay)];
    var pulsed := [PinHigh, Wait(HoldHigh), PinLow, Wait(SettleTime), Emit(PowerOnSignal)] + k;
    var direct := [Emit(PowerOnSignal)] + k;
    assert Emit(ReadySignal) !in pulsed && EmitError(NotFound) !in pulsed && Callback(None) !in pulsed;
    assert Emit(ReadySignal) !in direct && EmitError(NotFound) !in direct && Callback(None) !in direct;
    var t := PowerOn(power, power, k);
    assert t == if power == Off then pulsed else direct;
    t
  }

  /** One check. `received` is whether the UART held data. */
  function Step(m: Machine, received: bool): (r: (Machine, seq<Action>))
    // `powerState` becomes 'on' exactly on a non-empty receive of a live check
    ensures Live(m) && received ==> r.0.power == On
    ensures r.0.power == On && m.power == Off ==> received
    ensures m.phase.Probing? && !received ==> r.0.power == m.power
    ensures m.phase.Attempting? && !received ==> r.0.power == Off
    ensures r.0.power != m.power ==> Live(m)
    ensures !Live(m) ==> r == (m, [])
    ensures Emit(ReadySignal) in r.1 ==> received
    // the constructor's callback runs only alongside 'ready'; failure never calls it
    ensures r.0.userCallback == m.userCallback
    ensures Callback(None) in r.1 <==> m.userCallback && Emit(ReadySignal) in r.1
  {
    match m.phase
    case Probing =>
      if received then (m.(phase := Ready, power := On), ReadyActions(m))
      else (m.(phase := Attempting(0)), Attempt(m.power))
    case Attempting(count) =>
      if received then (m.(phase := Ready, power := On), ReadyActions(m))
      else if count + 1 > RetryLimit then
        (m.(phase := Failed, power := Off), [EmitError(NotFound)])
      else
        (m.(phase := Attempting(count + 1), power := Off), Attempt(Off))
    case Ready => (m, [])
    case Failed => (m, [])
  }

  /** A check is still armed. */
  predicate Live(m: Machine) {
    m.phase.Probing? || m.phase.Attempting?
  }

  /** The states the constructor can reach: `count` never passes the limit
      and the tracked state is 'on' exactly once ready. */
  predicate Valid(m: Machine) {
    && (m.phase.Attempting? ==> m.phase.failures <= RetryLimit)
    && (m.power == On <==> m.phase.Ready?)
  }

  /** Empty checks still needed, from `m`, before the error. */
  function Budget(m: Machine): nat
    requires Valid(m)
  {
    match m.phase
    case Probing => RetryLimit + 2
    case Attempting(count) => RetryLimit + 1 - count
    case Ready => 0
    case Failed => 0
  }

  /** The state and actions after a sequence of checks. */
  function Run(m: Machine, checks: seq<bool>): (r: (Machine, seq<Action>))
    // a finished bring-up stays finished, and only data turns the power on
    ensures Live(r.0) ==> Live(m)
    ensures r.0.power == On && m.power == Off ==> true in checks
    ensures r.0.userCallback == m.userCallback
    decreases |checks|
  {
    if |checks| == 0 then (m, [])
    else
      var first := Step(m, checks[0]);
      var rest := Run(first.0, checks[1..]);
      (rest.0, first.1 + rest.1)
  }

  lemma {:induction false} RunFromFinished(m: Machine, checks: seq<bool>)
    requires !Live(m)
    ensures Run(m, checks) == (m, [])
    decreases |checks|
  {
    if |checks| > 0 {
      RunFromFinished(m, checks[1..]);
      assert Step(m, checks[0]) == (m, []);
      var nothing: seq<Action> := [];
      assert nothing + nothing == nothing;
    }
  }

  /** What one live check does, in terms of the budget of empty checks. */
  lemma StepFacts(m: Machine, received: bool)
    requires Valid(m) && Live(m)
    ensures Valid(Step(m, received).0)
    ensures EmitError(NotFound) in Step(m, received).1 <==> !received && Budget(m) == 1
    ensures Occurrences(Step(m, received).1, Emit(ReadySignal)) == (if received then 1 else 0)
    ensures Occurrences(Step(m, received).1, PinHigh) == (if !received && Budget(m) > 1 then 1 else 0)
    ensures received || Budget(m) == 1 ==> !Live(Step(m, received).0)
    ensures !received && Budget(m) > 1 ==>
      Live(Step(m, received).0) && Budget(Step(m, received).0) == Budget(m) - 1
  {
    var r := Step(m, received);
    if received {
      assert r.1 == ReadyActions(m);
    } else if Budget(m) == 1 {
      assert r.1 == [EmitError(NotFound)];
    } else {
      assert r.1 == Attempt(Off);
    }
  }

  /** Unfolding one check of a run. */
  lemma RunStep(m: Machine, checks: seq<bool>)
    requires |checks| > 0
    ensures Run(m, checks).1 == Step(m, checks[0]).1 + Run(Step(m, checks[0]).0, checks[1..]).1
  {
  }

  /** The first `n` checks exist and all found the UART empty. */
  predicate AllEmpty(checks: seq<bool>, n: nat) {
    |checks| >= n && forall i :: 0 <= i < n ==> !checks[i]
  }

  /** One of the first `n` checks found data. */
  predicate DataWithin(checks: seq<bool>, n: nat) {
    exists i :: 0 <= i < |checks| && i < n && checks[i]
  }

  lemma AllEmptyCons(checks: seq<bool>, n: nat)
    requires |checks| > 0
    ensures AllEmpty(checks, n + 1) <==> !checks[0] && AllEmpty(checks[1..], n)
  {
    if !checks[0] && AllEmpty(checks[1..], n) {
      forall i | 0 <= i < n + 1 ensures !checks[i] {
        if i > 0 {
          assert checks[i] == checks[1..][i - 1];
        }
      }
    }
    if AllEmpty(checks, n + 1) {
      forall i | 0 <= i < n ensures !checks[1..][i] {
        assert checks[1..][i] == checks[i + 1];
      }
    }
  }

  lemma DataWithinCons(checks: seq<bool>, n: nat)
    requires |checks| > 0
    ensures DataWithin(checks, n + 1) <==> checks[0] || DataWithin(checks[1..], n)
  {
    if DataWithin(checks, n + 1) && !checks[0] {
      var i :| 0 <= i < |checks| && i < n + 1 && checks[i];
      assert checks[1..][i - 1];
    }
    if DataWithin(checks[1..], n) {
      var j :| 0 <= j < |checks[1..]| && j < n && checks[1..][j];
      assert checks[j + 1];
    }
  }

  /** The error is emitted exactly when the remaining budget of checks all
      come back empty. */
  lemma {:induction false} ErrorIffBudgetEmpty(m: Machine, checks: seq<bool>)
    requires Valid(m)
    ensures EmitError(NotFound) in Run(m, checks).1 <==> Live(m) && AllEmpty(checks, Budget(m))
    decreases |checks|
  {
    if |checks| == 0 {
    } else if !Live(m) {
      RunFromFinished(m, checks);
    } else {
      var m1 := Step(m, checks[0]).0;
      var rest := checks[1..];
      StepFacts(m, checks[0]);
      RunStep(m, checks);
      ErrorIffBudgetEmpty(m1, rest);
      AllEmptyCons(checks, Budget(m) - 1);
      if checks[0] || Budget(m) == 1 {
        RunFromFinished(m1, rest);
      }
    }
  }

  /** 'Could not find GPS module' is emitted exactly when the first check
      and the four post-pulse checks after it all find the UART empty. */
  lemma ErrorIffFiveEmptyChecks(userCallback: bool, checks: seq<bool>)
    ensures EmitError(NotFound) in Run(Init(userCallback), checks).1 <==>
      |checks| >= 5 && forall i :: 0 <= i < 5 ==> !checks[i]
  {
    ErrorIffBudgetEmpty(Init(userCallback), checks);
  }

  /** 'ready' is emitted at most once, and exactly when one of the checks
      still armed finds data. */
  lemma {:induction false} ReadyOnceAfterData(m: Machine, checks: seq<bool>)
    requires Valid(m)
    ensures Occurrences(Run(m, checks).1, Emit(ReadySignal)) <= (if Live(m) then 1 else 0)
    ensures Emit(ReadySignal) in Run(m, checks).1 <==> Live(m) && DataWithin(checks, Budget(m))
    decreases |checks|
  {
    if |checks| == 0 {
    } else if !Live(m) {
      RunFromFinished(m, checks);
    } else {
      var m1 := Step(m, checks[0]).0;
      var rest := checks[1..];
      StepFacts(m, checks[0]);
      RunStep(m, checks);
      ReadyOnceAfterData(m1, rest);
      OccurrencesConcat(Step(m, checks[0]).1, Run(m1, rest).1, Emit(ReadySignal));
      DataWithinCons(checks, Budget(m) - 1);
      if checks[0] || Budget(m) == 1 {
        RunFromFinished(m1, rest);
        if !checks[0] {
          assert !DataWithin(rest, 0);
        }
      }
    }
  }

  /** From construction: 'ready' at most once, and only if one of the first
      five checks found data. */
  lemma ReadyOnlyAfterData(userCallback: bool, checks: seq<bool>)
    ensures Occurrences(Run(Init(userCallback), checks).1, Emit(ReadySignal)) <= 1
    ensures Emit(ReadySignal) in Run(Init(userCallback), checks).1 <==>
      exists i :: 0 <= i < |checks| && i < 5 && checks[i]
  {
    ReadyOnceAfterData(Init(userCallback), checks);
  }

  /** The constructor's callback is called exactly when it was given and
      'ready' is emitted: the not-found path never calls it. */
  lemma {:induction false} CallbackIffReady(m: Machine, checks: seq<bool>)
    ensures Callback(None) in Run(m, checks).1 <==>
      m.userCallback && Emit(ReadySignal) in Run(m, checks).1
    decreases |checks|
  {
    if |checks| > 0 {
      var first := Step(m, checks[0]);
      CallbackIffReady(first.0, checks[1..]);
      RunStep(m, checks);
    }
  }

  /** At most four power pulses over the whole bring-up. */
  lemma {:induction false} PulsesWithinBudget(m: Machine, checks: seq<bool>)
    requires Valid(m)
    ensures Occurrences(Run(m, checks).1, PinHigh) <= (if Live(m) then Budget(m) - 1 else 0)
    decreases |checks|
  {
    if |checks| == 0 {
    } else if !Live(m) {
      RunFromFinished(m, checks);
    } else {
      var m1 := Step(m, checks[0]).0;
      StepFacts(m, checks[0]);
      RunStep(m, checks);
      PulsesWithinBudget(m1, checks[1..]);
      OccurrencesConcat(Step(m, checks[0]).1, Run(m1, checks[1..]).1, PinHigh);
      if checks[0] {
        RunFromFinished(m1, checks[1..]);
      } else if m.phase.Attempting? && m.phase.failures + 1 > RetryLimit {
        RunFromFinished(m1, checks[1..]);
      }
    }
  }

  lemma AtMostFourPulses(userCallback: bool, checks: seq<bool>)
    ensures Occurrences(Run(Init(userCallback), checks).1, PinHigh) <= 4
  {
    PulsesWithinBudget(Init(userCallback), checks);
  }
}

=== FILE: sirfframe.dfy ===
/** The SiRF Binary Protocol transport message and the "Switch To NMEA
    Protocol" input message (Message ID 129) that the Tessel 2 driver sends
    once it hears the receiver (`_switchToNMEA9800`, lib/tessel_2/driver.js).

    A transport message is: start sequence A0 A2, a 15-bit big-endian payload
    length, the payload, a 15-bit big-endian checksum (the sum of the payload
    bytes modulo 2^15) and the end sequence B0 B3. */
module SirfFrame {
  import opened Wrappers
  import opened Effects

  const StartSequence: seq<byte> := [0xA0, 0xA2]
  const EndSequence: seq<byte> := [0xB0, 0xB3]
  /** Length and checksum fields are 15 bits wide. */
  const FieldLimit := 0x8000

  function Sum(bytes: seq<byte>): nat
    decreases |bytes|
  {
    if |bytes| == 0 then 0 else bytes[0] + Sum(bytes[1..])
  }

  function Checksum(payload: seq<byte>): (c: nat)
    ensures c < FieldLimit
  {
    Sum(payload) % FieldLimit
  }

  /** A 15-bit value as two big-endian bytes. */
  function Field(n: nat): (b: seq<byte>)
    requires n < FieldLimit
    ensures |b| == 2 && b[0] < 0x80
  {
    [n / 256, n % 256]
  }

  function FieldValue(hi: byte, lo: byte): nat {
    hi * 256 + lo
  }

  lemma FieldRoundTrip(n: nat)
    requires n < FieldLimit
    ensures FieldValue(Field(n)[0], Field(n)[1]) == n
  {
  }

  lemma {:induction false} FieldValueRoundTrip(hi: byte, lo: byte)
    requires hi < 0x80
    ensures FieldValue(hi, lo) < FieldLimit
    ensures Field(FieldValue(hi, lo)) == [hi, lo]
  {
    var n := hi * 256 + lo;
    assert n / 256 == hi && n % 256 == lo by {
      DivMod256(hi, lo);
    }
  }

  lemma DivMod256(q: nat, r: nat)
    requires r < 256
    ensures (q * 256 + r) / 256 == q && (q * 256 + r) % 256 == r
  {
  }

  /** Wraps a payload in a transport message. */
  function Frame(payload: seq<byte>): (m: seq<byte>)
    requires |payload| < FieldLimit
    ensures |m| == |payload| + 8
    ensures m[..2] == StartSequence && m[|m| - 2..] == EndSequence
    ensures m[4..|m| - 4] == payload
  {
    StartSequence + Field(|payload|) + payload + Field(Checksum(payload)) + EndSequence
  }

  /** Reads a transport message back: None unless the start and end
      sequences, the length field and the checksum all agree. */
  function Unframe(m: seq<byte>): (r: Option<seq<byte>>)
    ensures r.Some? ==> |r.value| + 8 == |m| && r.value == m[4..|m| - 4]
  {
    if |m| < 8 || m[..2] != StartSequence || m[|m| - 2..] != EndSequence then None
    else
      var payload := m[4..|m| - 4];
      var n := |m|;
      if m[2] < 0x80 && FieldValue(m[2], m[3]) == |payload|
        && m[n - 4] < 0x80 && FieldValue(m[n - 4], m[n - 3]) == Checksum(payload)
      then Some(payload)
      else None
  }

  /** Framing is undone by unframing ... */
  lemma UnframeFrame(payload: seq<byte>)
    requires |payload| < FieldLimit
    ensures Unframe(Frame(payload)) == Some(payload)
  {
    var m := Frame(payload);
    var n := |m|;
    assert m[2..4] == Field(|payload|);
    assert m[n - 4..n - 2] == Field(Checksum(payload));
    FieldRoundTrip(|payload|);
    FieldRoundTrip(Checksum(payload));
  }

  /** ... and every message that unframes is exactly the framing of its payload. */
  lemma {:induction false} FrameUnframe(m: seq<byte>)
    requires Unframe(m).Some?
    ensures |Unframe(m).value| < FieldLimit && Frame(Unframe(m).value) == m
  {
    var payload := Unframe(m).value;
    var n := |m|;
    FieldValueRoundTrip(m[2], m[3]);
    FieldValueRoundTrip(m[n - 4], m[n - 3]);
    assert m == m[..2] + m[2..4] + payload + m[n - 4..n - 2] + m[n - 2..];
  }

  /** One NMEA sentence's output setting in Message ID 129: its rate in
      seconds (0 = off) and whether it carries a checksum. */
  datatype Rate = Rate(period: byte, checksum: byte)

  /** The Message ID 129 fields. `rates` lists GGA, GLL, GSA, GSV, RMC,
      VTG, MSS, EPE, ZDA and the unused slot, in that order. */
  datatype SwitchToNmea = SwitchToNmea(mode: byte, rates: seq<Rate>, baud: nat)
  {
    predicate Valid() {
      |rates| == RateSlots && baud < 0x10000
    }
  }

  const SwitchToNmeaId: byte := 0x81
  const RateSlots := 10
  const SwitchToNmeaLength := 2 + 2 * RateSlots + 2

  function EncodeRates(rates: seq<Rate>): (b: seq<byte>)
    ensures |b| == 2 * |rates|
    decreases |rates|
  {
    if |rates| == 0 then [] else [rates[0].period, rates[0].checksum] + EncodeRates(rates[1..])
  }

  function DecodeRates(b: seq<byte>): (rates: seq<Rate>)
    requires |b| % 2 == 0
    ensures 2 * |rates| == |b|
    decreases |b|
  {
    if |b| == 0 then [] else [Rate(b[0], b[1])] + DecodeRates(b[2..])
  }

  lemma {:induction false} RatesRoundTrip(rates: seq<Rate>)
    ensures DecodeRates(EncodeRates(rates)) == rates
    decreases |rates|
  {
    if |rates| > 0 {
      var b := EncodeRates(rates);
      assert b[2..] == EncodeRates(rates[1..]);
      RatesRoundTrip(rates[1..]);
    }
  }

  lemma {:induction false} RatesBytesRoundTrip(b: seq<byte>)
    requires |b| % 2 == 0
    ensures EncodeRates(DecodeRates(b)) == b
    decreases |b|
  {
    if |b| > 0 {
      RatesBytesRoundTrip(b[2..]);
      assert b == [b[0], b[1]] + b[2..];
    }
  }

  function Encode(c: SwitchToNmea): (p: seq<byte>)
    requires c.Valid()
    ensures |p| == SwitchToNmeaLength && p[0] == SwitchToNmeaId && p[1] == c.mode
  {
    [SwitchToNmeaId, c.mode] + EncodeRates(c.rates) + [c.baud / 256, c.baud % 256]
  }

  function Decode(p: seq<byte>): (r: Option<SwitchToNmea>)
    ensures r.Some? <==> |p| == SwitchToNmeaLength && p[0] == SwitchToNmeaId
    ensures r.Some? ==> r.value.Valid() && r.value.mode == p[1]
  {
    if |p| != SwitchToNmeaLength || p[0] != SwitchToNmeaId then None
    else Some(SwitchToNmea(p[1], DecodeRates(p[2..2 + 2 * RateSlots]), FieldValue(p[22], p[23])))
  }

  lemma DecodeEncode(c: SwitchToNmea)
    requires c.Valid()
    ensures Decode(Encode(c)) == Some(c)
  {
    var p := Encode(c);
    assert p[2..2 + 2 * RateSlots] == EncodeRates(c.rates);
    RatesRoundTrip(c.rates);
    DivMod256(c.baud / 256, c.baud % 256);
  }

  lemma EncodeDecode(p: seq<byte>)
    requires Decode(p).Some?
    ensures Encode(Decode(p).value) == p
  {
    var c := Decode(p).value;
    RatesBytesRoundTrip(p[2..2 + 2 * RateSlots]);
    DivMod256(p[22], p[23]);
    assert p == [p[0], p[1]] + p[2..22] + [p[22], p[23]];
  }

  lemma {:induction false} EncodeRatesSplit(a: seq<Rate>, b: seq<Rate>)
    ensures EncodeRates(a + b) == EncodeRates(a) + EncodeRates(b)
    decreases |a|
  {
    if |a| == 0 {
      assert a + b == b;
    } else {
      EncodeRatesSplit(a[1..], b);
      assert (a + b)[1..] == a[1..] + b;
    }
  }

  lemma {:induction false} SumSplit(a: seq<byte>, b: seq<byte>)
    ensures Sum(a + b) == Sum(a) + Sum(b)
    decreases |a|
  {
    if |a| == 0 {
      assert a + b == b;
    } else {
      SumSplit(a[1..], b);
      assert (a + b)[1..] == a[1..] + b;
    }
  }

  /** The rates the driver asks for: GGA, GSA and RMC every second, GSV
      every five seconds, GLL off ... */
  const RatesGgaToRmc: seq<Rate> := [Rate(1, 1), Rate(0, 1), Rate(1, 1), Rate(5, 1), Rate(1, 1)]
  /** ... and VTG, MSS, EPE, ZDA and the unused slot off; each with checksums. */
  const RatesVtgToSpare: seq<Rate> := [Rate(0, 1), Rate(0, 1), Rate(0, 1), Rate(0, 1), Rate(0, 1)]

  /** The settings the driver asks for, at 9600 baud. */
  const NmeaAt9600: SwitchToNmea := SwitchToNmea(0x02, RatesGgaToRmc + RatesVtgToSpare, 9600)

  /** The 32 bytes the driver writes to the UART, grouped by field: start
      sequence and length, Message ID and mode, the ten rates, the baud
      rate, then checksum and end sequence. */
  const BytesGgaToRmc: seq<byte> := [0x01, 0x01, 0x00, 0x01, 0x01, 0x01, 0x05, 0x01, 0x01, 0x01]
  const BytesVtgToSpare: seq<byte> := [0x00, 0x01, 0x00, 0x01, 0x00, 0x01, 0x00, 0x01, 0x00, 0x01]
  const SwitchPayload: seq<byte> := [0x81, 0x02] + BytesGgaToRmc + BytesVtgToSpare + [0x25, 0x80]
  const SwitchFrame: seq<byte> := [0xA0, 0xA2, 0x00, 0x18] + SwitchPayload + [0x01, 0x3A, 0xB0, 0xB3]

  lemma RatesBytes()
    ensures EncodeRates(RatesGgaToRmc) == BytesGgaToRmc
    ensures EncodeRates(RatesVtgToSpare) == BytesVtgToSpare
  {
  }

  lemma EncodesToSwitchPayload()
    ensures Encode(NmeaAt9600) == SwitchPayload
  {
    RatesBytes();
    EncodeRatesSplit(RatesGgaToRmc, RatesVtgToSpare);
  }

  lemma PayloadSum()
    ensures Sum(SwitchPayload) == 0x013A
  {
    assert Sum(BytesGgaToRmc) == 13;
    assert Sum(BytesVtgToSpare) == 5;
    assert Sum([0x81, 0x02]) == 0x83;
    assert Sum([0x25, 0x80]) == 0xA5;
    SumSplit([0x81, 0x02], BytesGgaToRmc);
    SumSplit([0x81, 0x02] + BytesGgaToRmc, BytesVtgToSpare);
    SumSplit([0x81, 0x02] + BytesGgaToRmc + BytesVtgToSpare, [0x25, 0x80]);
  }

  /** The frame of any 24-byte payload whose checksum is 0x013A. */
  lemma FrameOfSwitchShape(p: seq<byte>)
    requires |p| == 24 && Checksum(p) == 0x013A
    ensures Frame(p) == [0xA0, 0xA2, 0x00, 0x18] + p + [0x01, 0x3A, 0xB0, 0xB3]
  {
    assert Field(|p|) == [0x00, 0x18];
    assert Field(Checksum(p)) == [0x01, 0x3A];
  }

  /** The driver's constant is a well-formed transport message carrying a
      Message ID 129 payload: 24 payload bytes, checksum 0x013A equal to the
      payload byte sum, and baud 9600 — the rate the UART is reopened at. */
  lemma SwitchFrameIsWellFormed()
    ensures |SwitchFrame| == 32
    ensures SwitchFrame == Frame(Encode(NmeaAt9600))
    ensures Unframe(SwitchFrame) == Some(Encode(NmeaAt9600))
    ensures SwitchFrame[2] == 0x00 && SwitchFrame[3] == 0x18 && |Encode(NmeaAt9600)| == 0x18
    ensures Checksum(Encode(NmeaAt9600)) == Sum(Encode(NmeaAt9600)) == 0x013A
    ensures Decode(Encode(NmeaAt9600)).value.baud == 9600
  {
    EncodesToSwitchPayload();
    PayloadSum();
    FrameOfSwitchShape(SwitchPayload);
    UnframeFrame(SwitchPayload);
    DecodeEncode(NmeaAt9600);
  }
}

=== FILE: wrappers.dfy ===
/** Optional values: the model's stand-in for JavaScript's `undefined`
    and for `NaN` results of the number parsers. */
module Wrappers {

  datatype Option<+T> = None | Some(value: T) {

    /** The carried value, or `default` when there is none. */
    function GetOr(default: T): T {
      match this
      case Some(v) => v
      case None => default
    }
  }
}
